=== FILE: README.md ===
# Society points and review workflow, modelled in Dafny

This project models the points accounting and review workflow of the
andela-societies backend, a Flask service. Members log activities and earn
points for their society. Society presidents redeem points. Secretaries and
success ops review both.

The model covers these parts:

- **Ledger** (`ledger.dfy`). Each society has two counters that only
  accumulate: earned points and used points. Both are written through
  setters that add an item's value. Remaining points are derived as earned
  minus used.
- **Records and store** (`entities.dfy`, `keys.dfy`). Every table is a map
  from identifiers to immutable records. A SQL `.first()` without ordering
  is fixed to the matching row with the least identifier.
- **Validation** (`schemas.dfy`, `text.dfy`). These are the rules of the
  logged-activity payload and the activity payload, and the rule that role
  and activity-type names are unique ignoring case.
- **Valuation** (`valuation.dfy`). A claim is resolved to its activity,
  type, date and point value. Future dates are refused on the type path,
  claims older than 30 days are refused on both paths, and the participant
  multiplier applies.
- **Logged-activity lifecycle** (`logged_activities.dfy`,
  `bulk_approval.dfy`):
  - submission;
  - owner-only edit and delete while the claim is `in review`;
  - secretary review;
  - bulk approval, which is the only place earned points enter the ledger;
  - single rejection and info requests;
  - the member's earned-points sum.
- **Redemption lifecycle** (`redemptions.dfy`):
  - creation, field-wise edit, deletion and verification;
  - the separate pending-only lookup helper.
- **Roles, executives, societies and cohorts** (`roles.dfy`,
  `societies.dfy`).
- **The role gate** (`auth.dfy`, `api.dfy`). Every gated route is a `Call`,
  and the dispatcher refuses a caller who holds none of the route's roles
  with 401.

HTTP status codes become constructors of `Outcomes.Error`:

| Code | Constructor |
|---|---|
| 400 | `BadRequest` |
| 401 | `Unauthorized` |
| 403 | `Forbidden` |
| 404 | `NotFound` |
| 409 | `Conflict` |
| 422 | `Unprocessable` |
| 500 | `Internal` |

`Internal` stands for the handlers' uncaught `KeyError`, `AttributeError`
and `TypeError`.

Other modelling conventions:

- A payload key that is absent is `None`.
- Python truthiness is written out. `Given` means a present, non-empty
  string. `GivenInt` means a present, non-zero integer.
- Dates are integer day numbers, and `today` is a parameter.

Where the design description of the system and its code disagree, the model
follows the code:

- The design calls a redemption request terminal once decided. The
  verification handler never checks the current status (see
  `Redemptions.ApproveTwiceDebitsTwice` and
  `Redemptions.RejectAfterApprovalKeepsDebit`).
- The design has the secretary move claims out of `in review` only. The
  review handler accepts any current status (see
  `BulkApproval.ReviewThenReapproveCreditsTwice`).
- The design checks the balance when a redemption is created. The creation
  handler never checks it (see `Redemptions.CreationIgnoresBalance`).

## Model

| member | source | states |
|---|---|---|
| Ledger.NewSociety | src/api/models.py:176-177 | a new society starts with 0 earned, 0 used, 0 remaining |
| Ledger.CreditTotal | src/api/models.py:191-193 | assigning an item to `total_points` adds exactly its value to the earned counter; the used counter and all other fields are unchanged; remaining grows by the value |
| Ledger.CreditUsed | src/api/models.py:200-202 | assigning a request to `used_points` adds exactly its value to the used counter; the earned counter is unchanged; remaining falls by the value |
| Ledger.ApplyAllTotals | src/api/models.py:186-207 | after any sequence of credits, earned grows by the earned values and used by the spent values; remaining equals earned minus used; no other field moves |
| Ledger.ApplyAllMonotone | src/api/models.py:186-202 | with non-negative values, neither counter ever decreases |
| Ledger.RedemptionScenario | src/api/models.py:200-207 | 100 earned and 30 used, then a 40-point approval, gives 70 used and 30 remaining |
| Entities.NewLoggedActivity | src/api/models.py:237-241 | a new claim is `in review`, not redeemed, and has no participant count |
| Entities.NewRedemption | src/api/models.py:266 | a new redemption request is "pending" |
| Text.SameIgnoringCasePointwise | src/api/utils/marshmallow_schemas.py:36-37 | an `ilike` match without wildcards means the same length and the same letters after lower-casing |
| Schemas.ValidateLogInput | src/api/utils/marshmallow_schemas.py:189-219 | passes if and only if exactly one of the two identifiers is given, a type identifier comes with a date and a description, and a multi-participant type has a non-zero count |
| Schemas.ValidateActivityDate | src/api/utils/marshmallow_schemas.py:165-173 | a date passes if and only if it is not before today |
| Schemas.VerifyActivity | src/api/utils/marshmallow_schemas.py:144-163 | 404 if and only if the type is missing or unsupported; 409 if and only if the name is taken ignoring case; passes if and only if every rule holds |
| Schemas.LoadActivity | src/api/utils/marshmallow_schemas.py:120-173 | a missing description or a past date is refused with 400 before the post-load checks run; passes if and only if there is a description, the date is not past and the post-load checks pass |
| Schemas.UnsupportedWordRefused | src/api/utils/marshmallow_schemas.py:162-163 | a name containing "Blog" is refused with 400 even when it is otherwise acceptable |
| Schemas.VerifyRole | src/api/utils/marshmallow_schemas.py:33-41 | refused with 409 if and only if a stored role name matches ignoring case |
| Schemas.VerifyActivityType | src/api/utils/marshmallow_schemas.py:67-76 | refused with 409 if and only if a stored type name matches ignoring case |
| Schemas.RoleNameCaseDuplicate | src/api/utils/marshmallow_schemas.py:36-41 | a name differing from a stored role only in letter case is a 409 duplicate |
| Valuation.Value | src/api/utils/helpers.py:27-71 | activity path: 422 for an unknown activity; a multi-participant activity without count and description is refused; the claim is accepted if and only if that rule holds and the activity is at most 30 days old, and refused as too late if and only if it is older; the date and type come from the activity. Type path: a missing date or type key, or a missing count for a multi-participant type, is a 500 KeyError; a future date and an unknown type give 422; too late if and only if the date is more than 30 days back; accepted if and only if the date, type and count rules all hold. On every success the value is the type's value, times the count for multi-participant types |
| Valuation.ValidTypeClaimValued | src/api/utils/helpers.py:45-71 | every type-path claim with a known type, a date at most 30 days back and not in the future, and a count when the type needs one, is valued at the type's points for that count |
| Valuation.ValidActivityClaimValued | src/api/utils/helpers.py:29-71 | every claim of a stored activity at most 30 days old is valued at its type's points for the count, once a multi-participant activity has a count and a description |
| Valuation.ClaimWindowBoundary | src/api/utils/helpers.py:45-63 | on the type path 30 days back is accepted and 31 days back is refused |
| Valuation.ActivityClaimWindowBoundary | src/api/utils/helpers.py:29-63 | on the activity path an activity 30 days back is accepted and one 31 days back is refused |
| Valuation.FutureActivityAccepted | src/api/utils/helpers.py:43-63 | on the activity path a future-dated activity is valued without complaint |
| Valuation.MultiParticipantScenario | src/api/utils/helpers.py:65-67 | a 10-point multi-participant type claimed for 3 participants is worth 30 |
| LoggedActivities.Claim | src/api/endpoints/logged_activities.py:81-103 | the stored claim takes the valuation's value, type, date and activity, plus the caller and the society; it is `in review` and unredeemed; the count is kept only for "Bootcamp Interviews" |
| LoggedActivities.Submit | src/api/endpoints/logged_activities.py:60-114 | no data or an invalid payload gives 400; a member with no society gives 422; a valuation failure gives its own status. For a "Bootcamp Interviews" claim, a missing count is a 500 KeyError and a zero count gives 400. A claim is created if and only if the payload passes, the member has a society, the valuation succeeds and a Bootcamp claim has a non-zero count. On success exactly one claim is added, carrying the valuation's value, type and date and the member's society |
| LoggedActivities.Edit | src/api/endpoints/logged_activities.py:154-204 | no data or an invalid payload gives 400; only the caller's own claim is found (404 otherwise); a claim not `in review` gives 401; a failed valuation of the filled-in payload gives its own status. The edit succeeds if and only if all of these pass, and then the claim is revalued with the filled-in type and date, takes the payload's name, description and photo and the valuation's activity; its owner, society, status and count are kept, and no other claim changes |
| LoggedActivities.Filled | src/api/endpoints/logged_activities.py:177-181 | a missing type identifier or date is taken from the stored claim; given ones are kept |
| LoggedActivities.Delete | src/api/endpoints/logged_activities.py:207-224 | deletion succeeds if and only if the claim is the caller's own and `in review`; 404 and 403 otherwise; only that claim is removed |
| LoggedActivities.ReviewedClaimFrozen | src/api/endpoints/logged_activities.py:173-221 | a claim that has left `in review` can be neither edited nor deleted by its owner |
| LoggedActivities.SecretaryReview | src/api/endpoints/logged_activities.py:238-257 | succeeds if and only if the claim exists and the target is "pending" or "rejected"; the target is written whatever the current status, and nothing else changes |
| LoggedActivities.ReviewRoute | src/api/endpoints/logged_activities.py:236-240 | a request without a JSON body fails with 500; an object without a status gives 400 |
| LoggedActivities.ReviewReopensApproved | src/api/endpoints/logged_activities.py:248-251 | an approved claim can be sent back to `pending` |
| LoggedActivities.Reject | src/api/endpoints/logged_activities.py:345-375 | rejection succeeds if and only if the claim is `pending`; 403 otherwise; the ledger is untouched |
| LoggedActivities.RequestInfo | src/api/endpoints/logged_activities.py:387-431 | an info request succeeds if and only if there is data, an identifier, an existing claim, a non-empty comment, and an owner in a stored society; a missing society is a 500; success yields a notice to the claim's owner and changes no store |
| LoggedActivities.ApprovedSumSplit | src/api/endpoints/logged_activities.py:36-41 | the earned-points sum does not depend on the order rows are summed in |
| LoggedActivities.PointsEarned | src/api/endpoints/logged_activities.py:24-49 | an unknown member gives 404; otherwise the result is the sum of the values of the member's approved claims |
| LoggedActivities.NoApprovedNoPoints | src/api/endpoints/logged_activities.py:36-49 | a member with no approved claim has earned 0 |
| LoggedActivities.ApprovedSumFrame | src/api/endpoints/logged_activities.py:36-41 | the earned-points sum depends only on the rows it sums |
| LoggedActivities.ReplaceUnapprovedKeepsSum | src/api/endpoints/logged_activities.py:36-41 | swapping one unapproved row for another unapproved row leaves every member's earned points unchanged |
| LoggedActivities.SubmitKeepsEarnedPoints | src/api/endpoints/logged_activities.py:81-105 | a submission changes no society counter and no member's earned points |
| LoggedActivities.EditKeepsEarnedPoints | src/api/endpoints/logged_activities.py:173-196 | an edit changes no society counter and no member's earned points |
| LoggedActivities.RejectKeepsEarnedPoints | src/api/endpoints/logged_activities.py:356-375 | a rejection changes no society counter and no member's earned points |
| BulkApproval.Dedup | src/api/endpoints/logged_activities.py:290-299 | removes duplicates and keeps exactly the identifiers of the input |
| BulkApproval.EligibleIds | src/api/endpoints/logged_activities.py:290-299 | yields each eligible identifier exactly once: it exists, is unredeemed, and is not rejected, in review or approved |
| BulkApproval.CreditedToNonNegative | src/api/endpoints/logged_activities.py:308-311 | claims of non-negative value credit a non-negative amount |
| BulkApproval.ApproveAllEffect | src/api/endpoints/logged_activities.py:308-311 | approving the distinct eligible claims one by one has exactly the batch effect: those claims become approved, and each society's earned counter grows by the values of its approved claims |
| BulkApproval.ApproveBatch | src/api/endpoints/logged_activities.py:308-311 | reports as approved exactly the claims of the batch, with the batch effect |
| BulkApproval.BulkApprove | src/api/endpoints/logged_activities.py:270-333 | no list gives 400; more than 20 identifiers give 403, checked before the empty check; an empty list or no eligible claim gives 400; success happens if and only if some identifier is eligible, and then exactly the eligible claims are approved and credited once |
| BulkApproval.BatchCredits | src/api/endpoints/logged_activities.py:308-311 | each society's earned counter grows by exactly its claims in the batch; its used counter is untouched |
| BulkApproval.ApprovedNotEligible | src/api/endpoints/logged_activities.py:295-309 | after a batch no claim of that batch is eligible any more |
| BulkApproval.ApprovalNotRepeated | src/api/endpoints/logged_activities.py:295-306 | the same batch sent again is refused with 400 and credits nothing |
| BulkApproval.ApprovedSetsDisjoint | src/api/endpoints/logged_activities.py:295-311 | no claim is approved, and so credited, by two successive batches |
| BulkApproval.SingleApproval | src/api/endpoints/logged_activities.py:290-311 | a batch of one eligible claim approves it and credits exactly its value |
| BulkApproval.ReopenedEligible | src/api/endpoints/logged_activities.py:248-251 | an approved claim sent back to `pending` is eligible again and no counter moved |
| BulkApproval.ReviewThenReapproveCreditsTwice | src/api/endpoints/logged_activities.py:248-311 | approve, review back to `pending`, approve again: the society is credited twice |
| BulkApproval.RejectedNotEligible | src/api/endpoints/logged_activities.py:295-306 | a claim rejected by success ops is no longer eligible, so a batch of just that claim is refused with 400 and credits nothing |
| Redemptions.CenterNamed | src/api/endpoints/redemption_requests.py:50-52 | the centre is found by exact name, or is absent if no centre has that name |
| Redemptions.Requested | src/api/endpoints/redemption_requests.py:54-61 | the request is "pending" and belongs to the caller and the caller's society, with the given reason and value |
| Redemptions.Create | src/api/endpoints/redemption_requests.py:39-77 | success happens if and only if reason, value and centre are all truthy; otherwise 400. The request is stored if and only if the caller has a society and the centre exists. No other row or counter changes |
| Redemptions.Edit | src/api/endpoints/redemption_requests.py:82-122 | no data or no identifier gives 400; an unknown identifier gives 404; each of name, value and description is replaced only when given truthy; every other field and request is unchanged |
| Redemptions.Delete | src/api/endpoints/redemption_requests.py:176-192 | no identifier gives 400; an unknown one gives 404; otherwise exactly that request is removed, whatever its status |
| Redemptions.DebitedSociety | src/api/endpoints/redemption_requests.py:237-240 | the society debited is the requester's current society, when the requester has one |
| Redemptions.Verify | src/api/endpoints/redemption_requests.py:207-250 | no data or no identifier gives 400; no status gives 500, since the caught error's reply holds the exception object, which cannot be serialized; an unknown request gives 404. "approved" debits the requester's society by exactly the value and stores the status. Any other status is stored verbatim and the ledger is untouched |
| Redemptions.GetRedemptionRequest | src/api/utils/helpers.py:259-276 | returns the request if and only if it exists, is "pending", and for a president is in the president's own society; 404 if absent, 403 if decided |
| Redemptions.GuardedVerify | src/api/utils/helpers.py:259-276 | verification behind the pending-only lookup succeeds only on a pending request |
| Redemptions.CreationIgnoresBalance | src/api/endpoints/redemption_requests.py:54-62 | a request worth more than the society's remaining points is accepted and stored |
| Redemptions.EditIdempotent | src/api/endpoints/redemption_requests.py:105-116 | repeating the same edit changes nothing more |
| Redemptions.EditNothingIsIdentity | src/api/endpoints/redemption_requests.py:105-116 | an edit with no truthy field leaves the store as it was |
| Redemptions.DecidedRequestStillChangeable | src/api/endpoints/redemption_requests.py:97-189 | an approved request can still be edited and deleted |
| Redemptions.ApprovalDebitsValue | src/api/endpoints/redemption_requests.py:237-241 | an approval raises used points by exactly the value, leaves earned points alone, and lowers remaining by the value |
| Redemptions.ApproveTwiceDebitsTwice | src/api/endpoints/redemption_requests.py:229-241 | approving the same request twice debits its value twice |
| Redemptions.RejectAfterApprovalKeepsDebit | src/api/endpoints/redemption_requests.py:237-243 | an approved request can be marked "rejected" and the debit stays |
| Redemptions.GuardedApprovalOnce | src/api/utils/helpers.py:271-274 | behind the pending-only lookup, a second verification after an approval is refused, so the debit happens at most once |
| Redemptions.GuardRefusesDecided | src/api/utils/helpers.py:271-274 | behind the pending-only lookup, a decided request cannot be verified again |
| Roles.RoleNamed | src/api/endpoints/roles.py:118 | the role of exactly that name with the least identifier, or absent if there is none |
| Roles.SocietyNamed | src/api/endpoints/roles.py:117 | the society of exactly that name, or absent if there is none |
| Roles.CreateRole | src/api/endpoints/roles.py:20-38 | no data or no name gives 400; 409 if and only if the name is taken ignoring case; otherwise exactly one role is added |
| Roles.EditRole | src/api/utils/helpers.py:138-167 | an unknown role gives 404; a missing name gives 400; the same name leaves the store unchanged; otherwise only that role is renamed |
| Roles.RolePut | src/api/endpoints/roles.py:60-74 | renaming needs both data and a role identifier; otherwise 400 |
| Roles.DeleteRole | src/api/endpoints/roles.py:79-93 | no identifier gives 400; an unknown role gives 404; otherwise the role is removed and no user holds it any more |
| Roles.RenameAllowsDuplicate | src/api/utils/helpers.py:147-156 | renaming has no uniqueness check, so two roles can end up with the same name |
| Roles.Holders | src/api/endpoints/roles.py:131-139 | the members of the society who hold the role |
| Roles.ReassignPlan | src/api/endpoints/roles.py:104-156 | role, society and name must be truthy (400); an unknown role or society gives 404. With both found: more than one current holder is a 500; a new executive who is not a member of the society gives 404; no current holder gives 404. A plan is made if and only if there is exactly one current holder and a member of that name |
| Roles.Appoint | src/api/endpoints/roles.py:158-163 | the outgoing holder loses the role and the incoming member gains it; a member who is both keeps it; other users are untouched |
| Roles.Reassign | src/api/endpoints/roles.py:102-170 | a refused plan changes nothing; on success the new executive holds the role, the old one no longer does, and others are untouched |
| Roles.ReassignKeepsOneHolder | src/api/endpoints/roles.py:131-163 | after a reassignment the appointed member is the only holder of the role in the society |
| Societies.CreateSociety | src/api/endpoints/societies.py:21-50 | success happens if and only if all four keys are present; otherwise 400. The new society has the given fields and zero counters, and nothing else changes |
| Societies.OrNone | src/api/endpoints/societies.py:99-102 | `value or None`: present exactly when the input is truthy |
| Societies.Edited | src/api/endpoints/societies.py:99-110 | the name is written when truthy; the colour scheme goes to `color`; a truthy photo makes the logo input the photo; a truthy logo makes the photo input the logo; the counters and the colour-scheme column are unchanged |
| Societies.EditSociety | src/api/endpoints/societies.py:87-130 | no data or no identifier gives 400; an unknown society gives 404; a missing key gives 500; success only rewrites that society, never its counters |
| Societies.EditSwapsImages | src/api/endpoints/societies.py:107-110 | sending a new logo and photo puts each into the other's field |
| Societies.EditKeepsColorScheme | src/api/endpoints/societies.py:105-106 | a new colour scheme never reaches the colour-scheme column |
| Societies.DeleteSociety | src/api/endpoints/societies.py:135-151 | no identifier gives 400; an unknown society gives 404; otherwise exactly that society is removed |
| Societies.AssignCohort | src/api/endpoints/societies.py:160-207 | missing keys or an unknown society or cohort give 400; a cohort already in the society gives 409; otherwise only that cohort's society changes |
| Societies.AssignCohortOnce | src/api/endpoints/societies.py:188-195 | repeating a successful assignment gives 409 |
| Auth.RouteRoles | src/api/utils/auth.py:133-135 | a route's names resolve to the first stored role of each name; names with no role are dropped |
| Auth.PermittedByName | src/api/utils/auth.py:133-143 | with unique role names, the gate passes if and only if the caller holds a stored role that the route names |
| Auth.UnknownRouteRolesRefuseAll | src/api/utils/auth.py:133-142 | a route whose names match no stored role refuses every caller |
| Auth.DuplicateNameAdmitsFirstOnly | src/api/utils/auth.py:133-138 | of two roles sharing a name, only the first one passes the gate |
| Auth.TokenRole | src/api/utils/auth.py:120-123 | a token role name counts if and only if it is not "Andelan" and names a stored role |
| Auth.StoredRoles | src/api/utils/auth.py:120-123 | a new user's roles are the stored roles of the counted token names |
| Auth.StoredRolesByName | src/api/utils/auth.py:120-123 | with unique role names, a user's roles are exactly the stored roles named in the token, apart from "Andelan" |
| Api.Dispatch | src/api/utils/auth.py:128-145 | a gated call whose caller holds none of the route's roles gives 401 whatever the handler would do; otherwise the handler's result is returned |
| Api.OnlyApprovalsMoveCounters | src/api/models.py:186-202 | every successful call other than bulk approval and redemption verification leaves the counters of surviving societies unchanged, and new societies start at zero |
| Api.ApprovalNeverLowers | src/api/endpoints/logged_activities.py:308-311 | with non-negative values, bulk approval never lowers an earned counter and never touches a used counter |
| Api.VerificationNeverLowers | src/api/endpoints/redemption_requests.py:237-241 | with non-negative values, verification never lowers a used counter and never touches an earned counter |
| Api.CountersNeverDecrease | src/api/models.py:186-202 | with non-negative values, no successful call lowers either counter of any society |
| Api.ApprovalNeedsSuccessOps | src/api/endpoints/logged_activities.py:266-267 | a caller without the "success ops" role cannot approve claims |

## Left out

- Token decoding and checks are not modelled: JWT handling is cryptography plus external configuration. The gate takes the current user as given.
- The Andela people service (`add_extra_user_info`) and the user endpoints are left out because they are network I/O. A user's society and centre are inputs.
- ORM persistence is not modelled:
  - Each handler's writes become the returned store. This includes the verification, bulk-approval and rejection handlers, which never call `save()`.
  - A failed commit is not modelled, except that a redemption with no society or no centre is not stored.
  - Cascades and dangling foreign keys after a society delete are not modelled.
  - Concurrent requests are not modelled.
- E-mail dispatch is left out. An info request yields a `Notice` value instead.
- Serialization, pagination and the listing and filtering GET handlers are left out: they only read.
- `LoggedActivities.PointsEarned` omits the listing of the member's claims on the same page, which is read-only.
- The schema object keeps a stale `context` status code across requests, so a later plain validation failure may be answered 409 or 404. The model answers with the status of the failure at hand.
- A JSON `null` for a key is treated like an absent key.
- Length validators on identifier strings are not modelled: identifiers are numbers here.
- The redemption module imports a `Country` model that the models file does not define. The model reads it as the `Center` table, looked up by name.
- Redemptions.Create: the handler passes the looked-up row as `country=` to the `RedemptionRequest` constructor. That model has no `country` attribute, only the `center` backref, so the constructor raises `TypeError` and answers 500 before anything is stored. The model reads the keyword as `center=`, and stores the request and answers 201 as the handler evidently intends.
- Societies.AssignCohort: after committing the assignment, the handler reads `cohort.country` for its reply. `Cohort` has no such attribute, only the `center` backref, so every successful assignment raises `AttributeError` and answers 500, with the change already saved. The model reads it as `cohort.center`: it answers `Ok`, with the same stored change.
- Schemas.LoadActivity: the activity's name, type identifier and date are always present in the model. The 400 that the schema gives for a missing one of these required fields is not expressed.
- Integers are unbounded. PostgreSQL integer overflow of the counters is not modelled.
- Schemas.VerifyRole: `ilike` takes the submitted name as its pattern. The model compares it as plain text, ignoring ASCII case only. So a submitted `%` matches every stored role name and gets 409 in the handler, but passes in the model. Likewise `_` matches any single character. Non-ASCII case folding is not modelled either.
- Schemas.VerifyActivityType: the same `ilike` gap as for roles. A submitted name with `%` or `_` wildcards is compared as plain text.
- Schemas.VerifyActivity: the same `ilike` gap, for the submitted activity name.
- Activity creation (`activities.py`) is only modelled through its schema rules (`Schemas.LoadActivity`).
- Activity-type creation is likewise only modelled through its schema rule (`Schemas.VerifyActivityType`).
- Roles.DeleteRole: assumes the role's association rows go with it, as the many-to-many relationship removes them. The model does not follow what a failed delete would leave.
- Redemptions.Verify: a JSON `null` status would be stored as a missing status. Here it is treated like an absent key and answered 500.
- BulkApproval.BulkApprove: the identifier list is modelled as a list or absent. The handler also accepts other JSON values:
  - A string of more than 20 characters gives 403.
  - Any other string gives 400.
  - A number raises in `len` and gives 500.
- Auth.StoredRoles: the roles are stored only when the token's user is first seen (`src/api/utils/auth.py:83-85`). A stored user's roles are never refreshed from later tokens. The model takes a user's stored roles as given and does not follow later token changes.
- Api.Dispatch: does not model the token check that precedes the gate, nor the routes without a gate's role list beyond their handlers.

=== FILE: api.dfy ===
/**
 The protected routes of the backend as one dispatcher: each call names a
 handler and its inputs, each route carries the role names its gate lists,
 and a call the gate refuses is answered 401 without reaching its handler.

 The lemmas state the ledger discipline over every handler: only bulk
 approval writes the earned counter, only redemption verification writes
 the used counter, and with non-negative values no handler lowers either.
 */
module Api {
  import opened Outcomes
  import opened Keys
  import opened Ledger
  import opened Entities
  import Schemas
  import LoggedActivities
  import BulkApproval
  import Redemptions
  import Roles
  import Societies
  import Auth

  const SUCCESS_OPS: seq<string> := ["success ops"]
  const SECRETARY: seq<string> := ["society secretary"]
  const PRESIDENT: seq<string> := ["society president"]
  const REDEMPTION_EDITORS: seq<string> := ["society president", "success ops"]
  const REDEMPTION_DELETERS: seq<string> := ["success ops", "society president"]
  const REDEMPTION_VERIFIERS: seq<string> := ["success ops", "cio"]

  datatype Call =
    | SubmitClaim(today: int, claimInput: Option<Schemas.LogInput>, newId: Id)
    | EditClaim(today: int, claim: Id, claimInput: Option<Schemas.LogInput>)
    | DeleteClaim(claim: Id)
    | ReviewClaim(claim: Id, review: Option<LoggedActivities.ReviewInput>)
    | ApproveClaims(ids: Option<seq<Id>>)
    | RejectClaim(target: Option<Id>)
    | RequestClaimInfo(target: Option<Id>, info: Option<LoggedActivities.InfoInput>)
    | CreateRedemption(redemptionInput: Option<Redemptions.CreateInput>, newId: Id)
    | EditRedemption(target: Option<Id>, changes: Option<Redemptions.EditInput>)
    | DeleteRedemption(target: Option<Id>)
    | VerifyRedemption(target: Option<Id>, verdict: Option<Redemptions.VerifyInput>)
    | CreateRole(roleInput: Option<Roles.RoleInput>, newId: Id)
    | EditRole(target: Option<Id>, roleInput: Option<Roles.RoleInput>)
    | DeleteRole(target: Option<Id>)
    | ReassignExecutive(reassignInput: Option<Roles.ReassignInput>)
    | CreateSociety(societyInput: Option<Societies.SocietyInput>, newId: Id)
    | EditSociety(target: Option<Id>, societyInput: Option<Societies.SocietyInput>)
    | DeleteSociety(target: Option<Id>)
    | AssignCohort(cohortInput: Option<Societies.CohortInput>)

  /** The role names a route's gate lists; `None` for the routes that only
      need an authenticated user. */
  function RouteOf(call: Call): Option<seq<string>>
  {
    match call
    case SubmitClaim(_, _, _) => None
    case EditClaim(_, _, _) => None
    case DeleteClaim(_) => None
    case ReviewClaim(_, _) => Some(SECRETARY)
    case ApproveClaims(_) => Some(SUCCESS_OPS)
    case RejectClaim(_) => Some(SUCCESS_OPS)
    case RequestClaimInfo(_, _) => Some(SUCCESS_OPS)
    case CreateRedemption(_, _) => Some(PRESIDENT)
    case EditRedemption(_, _) => Some(REDEMPTION_EDITORS)
    case DeleteRedemption(_) => Some(REDEMPTION_DELETERS)
    case VerifyRedemption(_, _) => Some(REDEMPTION_VERIFIERS)
    case _ => Some(SUCCESS_OPS)
  }

  /** What a handler hands back: the next store, and the notice an info
      request queues. */
  datatype Reply = Reply(db: Db, notice: Option<LoggedActivities.Notice>)

  /** The store facts the handlers rely on, and fresh identifiers for the
      rows a call creates. */
  predicate Callable(db: Db, caller: Id, call: Call)
  {
    && caller in db.users
    && ActivitiesTyped(db.activityTypes, db.activities)
    && LoggedInSocieties(db)
    && (call.SubmitClaim? ==> call.newId !in db.logged)
    && (call.CreateRedemption? ==> call.newId !in db.redemptions)
    && (call.CreateRole? ==> call.newId !in db.roles)
    && (call.CreateSociety? ==> call.newId !in db.societies)
  }

  function Stored(r: Result<Db, Error>): Result<Reply, Error>
  {
    match r
    case Err(e) => Err(e)
    case Ok(db) => Ok(Reply(db, None))
  }

  /** The handler a call names, run on `db`. */
  function Handle(db: Db, caller: Id, call: Call): Result<Reply, Error>
    requires Callable(db, caller, call)
  {
    match call
    case SubmitClaim(today, input, newId) => Stored(LoggedActivities.Submit(db, caller, today, input, newId))
    case EditClaim(today, claim, input) => Stored(LoggedActivities.Edit(db, caller, today, claim, input))
    case DeleteClaim(claim) => Stored(LoggedActivities.Delete(db, caller, claim))
    case ReviewClaim(claim, review) => Stored(LoggedActivities.ReviewRoute(db, claim, review))
    case ApproveClaims(ids) =>
      (match BulkApproval.BulkApprove(db, ids)
       case Err(e) => Err(e)
       case Ok(a) => Ok(Reply(a.db, None)))
    case RejectClaim(target) => Stored(LoggedActivities.Reject(db, target))
    case RequestClaimInfo(target, info) =>
      (match LoggedActivities.RequestInfo(db, target, info)
       case Err(e) => Err(e)
       case Ok(n) => Ok(Reply(db, Some(n))))
    case CreateRedemption(input, newId) => Stored(Redemptions.Create(db, caller, input, newId))
    case EditRedemption(target, changes) => Stored(Redemptions.Edit(db, target, changes))
    case DeleteRedemption(target) => Stored(Redemptions.Delete(db, target))
    case VerifyRedemption(target, verdict) => Stored(Redemptions.Verify(db, target, verdict))
    case CreateRole(input, newId) => Stored(Roles.CreateRole(db, input, newId))
    case EditRole(target, input) => Stored(Roles.RolePut(db, target, input))
    case DeleteRole(target) => Stored(Roles.DeleteRole(db, target))
    case ReassignExecutive(input) => Stored(Roles.Reassign(db, input))
    case CreateSociety(input, newId) => Stored(Societies.CreateSociety(db, input, newId))
    case EditSociety(target, input) => Stored(Societies.EditSociety(db, target, input))
    case DeleteSociety(target) => Stored(Societies.DeleteSociety(db, target))
    case AssignCohort(input) => Stored(Societies.AssignCohort(db, input))
  }

  /** A request as the routing layer serves it: the gate first, then the
      handler. A refused call is answered 401 whatever its handler would
      have done. */
  function Dispatch(db: Db, caller: Id, call: Call): (r: Result<Reply, Error>)
    requires Callable(db, caller, call)
    ensures RouteOf(call).Some? && !Auth.Permitted(db, db.users[caller], RouteOf(call).value) ==>
              r == Err(Unauthorized)
    ensures RouteOf(call).None? || Auth.Permitted(db, db.users[caller], RouteOf(call).value) ==>
              r == Handle(db, caller, call)
  {
    match RouteOf(call)
    case Some(names) =>
      if Auth.Permitted(db, db.users[caller], names) then Handle(db, caller, call) else Err(Unauthorized)
    case None => Handle(db, caller, call)
  }

  /** The points counters of a society are unchanged. */
  predicate SameCounters(a: Society, b: Society)
  {
    a.totalPoints == b.totalPoints && a.usedPoints == b.usedPoints
  }

  /** Only bulk approval and redemption verification write the counters:
      every other successful call leaves the counters of every society that
      survives it as they were, and a society it creates starts at zero. */
  lemma {:induction false} OnlyApprovalsMoveCounters(db: Db, caller: Id, call: Call)
    requires Callable(db, caller, call)
    requires !call.ApproveClaims? && !call.VerifyRedemption?
    requires Dispatch(db, caller, call).Ok?
    ensures var after := Dispatch(db, caller, call).value.db;
            && (forall s :: s in db.societies && s in after.societies ==>
                  SameCounters(after.societies[s], db.societies[s]))
            && (forall s :: s in after.societies && s !in db.societies ==>
                  after.societies[s].totalPoints == 0 && after.societies[s].usedPoints == 0)
  {
    var after := Dispatch(db, caller, call).value.db;
    assert Handle(db, caller, call).Ok?;
    match call {
      case CreateSociety(input, newId) =>
        assert after.societies == db.societies[newId := after.societies[newId]];
      case EditSociety(target, input) =>
        assert after.societies == db.societies[target.value := after.societies[target.value]];
      case DeleteSociety(target) =>
        assert after.societies == db.societies - {target.value};
      case _ =>
        assert after.societies == db.societies;
    }
  }

  /** Values are non-negative in every claim and every redemption request. */
  predicate NonNegativeValues(db: Db)
  {
    && (forall i :: i in db.logged ==> db.logged[i].value >= 0)
    && (forall i :: i in db.redemptions ==> db.redemptions[i].value >= 0)
  }

  /** Bulk approval only adds to earned counters and leaves used counters. */
  lemma {:induction false} ApprovalNeverLowers(db: Db, ids: Option<seq<Id>>)
    requires LoggedInSocieties(db) && NonNegativeValues(db)
    requires BulkApproval.BulkApprove(db, ids).Ok?
    ensures var after := BulkApproval.BulkApprove(db, ids).value.db;
            forall s :: s in db.societies && s in after.societies ==>
              && after.societies[s].totalPoints >= db.societies[s].totalPoints
              && after.societies[s].usedPoints == db.societies[s].usedPoints
  {
    forall s | s in db.societies
      ensures BulkApproval.BulkApprove(db, ids).value.db.societies[s].totalPoints >= db.societies[s].totalPoints
      ensures BulkApproval.BulkApprove(db, ids).value.db.societies[s].usedPoints == db.societies[s].usedPoints
    {
      BulkApproval.BatchCredits(db, ids.value, s);
      var es := BulkApproval.EligibleIds(db, ids.value);
      BulkApproval.CreditedToNonNegative(db.logged, es, s);
    }
  }

  /** Redemption verification only adds to a used counter and leaves earned
      counters. */
  lemma VerificationNeverLowers(db: Db, target: Option<Id>, verdict: Option<Redemptions.VerifyInput>)
    requires NonNegativeValues(db)
    requires Redemptions.Verify(db, target, verdict).Ok?
    ensures var after := Redemptions.Verify(db, target, verdict).value;
            forall s :: s in db.societies && s in after.societies ==>
              && after.societies[s].totalPoints == db.societies[s].totalPoints
              && after.societies[s].usedPoints >= db.societies[s].usedPoints
  {
    assert db.redemptions[target.value].value >= 0;
  }

  /** No handler lowers a counter: with non-negative values, the earned and
      used counters of every society that survives a call are at least what
      they were. */
  lemma {:induction false} CountersNeverDecrease(db: Db, caller: Id, call: Call)
    requires Callable(db, caller, call) && NonNegativeValues(db)
    requires Dispatch(db, caller, call).Ok?
    ensures var after := Dispatch(db, caller, call).value.db;
            forall s :: s in db.societies && s in after.societies ==>
              && after.societies[s].totalPoints >= db.societies[s].totalPoints
              && after.societies[s].usedPoints >= db.societies[s].usedPoints
  {
    assert Dispatch(db, caller, call) == Handle(db, caller, call);
    if call.ApproveClaims? {
      assert Handle(db, caller, call).value.db == BulkApproval.BulkApprove(db, call.ids).value.db;
      ApprovalNeverLowers(db, call.ids);
    } else if call.VerifyRedemption? {
      assert Handle(db, caller, call).value.db == Redemptions.Verify(db, call.target, call.verdict).value;
      VerificationNeverLowers(db, call.target, call.verdict);
    } else {
      OnlyApprovalsMoveCounters(db, caller, call);
    }
  }

  /** A caller without any of the route's roles is refused whatever the call
      carries: success ops alone may approve claims. */
  lemma ApprovalNeedsSuccessOps(db: Db, caller: Id, ids: Option<seq<Id>>)
    requires Callable(db, caller, ApproveClaims(ids))
    requires forall k :: k in db.users[caller].roles && k in db.roles ==> db.roles[k].name != "success ops"
    ensures Dispatch(db, caller, ApproveClaims(ids)) == Err(Unauthorized)
  {
  }
}

=== FILE: auth.dfy ===
/**
 The role gate in front of the protected handlers, and the roles a user is
 given from the role names in their token.

 A route lists role names; each is resolved to the first stored role of
 exactly that name, and names with no stored role are dropped. The caller
 passes when they hold at least one of the resolved roles.
 */
module Auth {
  import opened Outcomes
  import opened Keys
  import opened Entities
  import opened Roles

  /** The stored roles a route's role names resolve to. */
  function RouteRoles(roles: map<Id, Role>, names: seq<string>): (r: set<Id>)
    ensures forall k :: k in r <==> exists i :: 0 <= i < |names| && RoleNamed(roles, names[i]) == Some(k)
    ensures r <= roles.Keys
  {
    set i, k | 0 <= i < |names| && k in roles && RoleNamed(roles, names[i]) == Some(k) :: k
  }

  /** The gate: the caller holds at least one of the route's roles. */
  predicate Permitted(db: Db, caller: User, names: seq<string>)
  {
    caller.roles * RouteRoles(db.roles, names) != {}
  }

  /** No two stored roles share a name. */
  predicate UniqueRoleNames(roles: map<Id, Role>)
  {
    forall j, k :: j in roles && k in roles && roles[j].name == roles[k].name ==> j == k
  }

  /** When role names are unique, the gate passes exactly when the caller
      holds a stored role whose name the route lists. */
  lemma {:induction false} PermittedByName(db: Db, caller: User, names: seq<string>)
    requires UniqueRoleNames(db.roles)
    ensures Permitted(db, caller, names) <==>
              exists k :: k in caller.roles && k in db.roles && db.roles[k].name in names
  {
    if Permitted(db, caller, names) {
      var k :| k in caller.roles * RouteRoles(db.roles, names);
      var i :| 0 <= i < |names| && RoleNamed(db.roles, names[i]) == Some(k);
      assert db.roles[k].name == names[i];
    }
    if k :| k in caller.roles && k in db.roles && db.roles[k].name in names {
      var i :| 0 <= i < |names| && names[i] == db.roles[k].name;
      var f := RoleNamed(db.roles, names[i]);
      assert f.Some? && db.roles[f.value].name == db.roles[k].name;
      assert f.value == k;
      assert k in caller.roles * RouteRoles(db.roles, names);
    }
  }

  /** A route none of whose names is a stored role refuses every caller. */
  lemma UnknownRouteRolesRefuseAll(db: Db, caller: User, names: seq<string>)
    requires forall i, k :: 0 <= i < |names| && k in db.roles ==> db.roles[k].name != names[i]
    ensures !Permitted(db, caller, names)
  {
    assert RouteRoles(db.roles, names) == {};
  }

  /** When two stored roles share a name, the name resolves to the first of
      them only: holding the other one does not pass the gate. */
  lemma {:induction false} DuplicateNameAdmitsFirstOnly(db: Db, caller: User, name: string, j: Id, k: Id)
    requires j in db.roles && k in db.roles && j < k
    requires db.roles[j].name == name && db.roles[k].name == name
    requires caller.roles == {k}
    ensures !Permitted(db, caller, [name])
  {
    assert RoleNamed(db.roles, name).value <= j;
    assert k !in RouteRoles(db.roles, [name]);
  }

  /** The role a token's role name stands for, when it is stored and is not
      the everybody role "Andelan". */
  function TokenRole(roles: map<Id, Role>, name: string): (r: Option<Id>)
    ensures r.Some? <==> name != "Andelan" && RoleNamed(roles, name).Some?
    ensures r.Some? ==> r == RoleNamed(roles, name)
  {
    if name != "Andelan" then RoleNamed(roles, name) else None
  }

  /** The roles stored for a user the first time their token is seen; a
      user already stored keeps the roles stored then. */
  function StoredRoles(roles: map<Id, Role>, tokenNames: seq<string>): (r: set<Id>)
    ensures forall k :: k in r <==> exists i :: 0 <= i < |tokenNames| && TokenRole(roles, tokenNames[i]) == Some(k)
    ensures r <= roles.Keys
  {
    set i, k | 0 <= i < |tokenNames| && k in roles && TokenRole(roles, tokenNames[i]) == Some(k) :: k
  }

  /** With unique role names, a user's stored roles are exactly the stored
      roles named in the token, apart from "Andelan". */
  lemma {:induction false} StoredRolesByName(roles: map<Id, Role>, tokenNames: seq<string>)
    requires UniqueRoleNames(roles)
    ensures forall k :: k in StoredRoles(roles, tokenNames) <==>
              k in roles && roles[k].name in tokenNames && roles[k].name != "Andelan"
  {
    forall k | k in roles && roles[k].name in tokenNames && roles[k].name != "Andelan"
      ensures k in StoredRoles(roles, tokenNames)
    {
      var i :| 0 <= i < |tokenNames| && tokenNames[i] == roles[k].name;
      var f := RoleNamed(roles, tokenNames[i]);
      assert f.Some? && roles[f.value].name == roles[k].name;
      assert TokenRole(roles, tokenNames[i]) == Some(k);
    }
    forall k | k in StoredRoles(roles, tokenNames)
      ensures k in roles && roles[k].name in tokenNames && roles[k].name != "Andelan"
    {
      var i :| 0 <= i < |tokenNames| && TokenRole(roles, tokenNames[i]) == Some(k);
      assert roles[k].name == tokenNames[i];
    }
  }
}

=== FILE: bulk_approval.dfy ===
/**
 Bulk approval of logged activities by success ops: the only place where
 earned points enter a society's ledger.

 A batch holds at most 20 identifiers. Identifiers of missing, redeemed,
 rejected, `in review` or already approved claims are skipped; the rest,
 each taken once, become `approved` and credit their society's earned
 counter with their value. A batch in which nothing is eligible is refused.
 */
module BulkApproval {
  import opened Outcomes
  import opened Keys
  import opened Ledger
  import opened Entities
  import LoggedActivities

  /** The largest batch accepted in one call. */
  const MAX_BATCH: int := 20

  predicate Distinct(s: seq<Id>)
  {
    forall i, j :: 0 <= i < j < |s| ==> s[i] != s[j]
  }

  /** The identifiers of `ids`, each once (the handler collects them in a set). */
  function Dedup(ids: seq<Id>): (r: seq<Id>)
    ensures forall x :: x in r <==> x in ids
    ensures Distinct(r)
    decreases |ids|
  {
    if ids == [] then []
    else if ids[0] in ids[1..] then Dedup(ids[1..])
    else [ids[0]] + Dedup(ids[1..])
  }

  /** The claim is not skipped by the handler's filter. */
  predicate Eligible(db: Db, id: Id)
  {
    id in db.logged && !db.logged[id].redeemed && db.logged[id].status !in {Rejected, InReview, Approved}
  }

  /** The claims the batch approves: the eligible identifiers, each once. */
  function EligibleIds(db: Db, ids: seq<Id>): (r: seq<Id>)
    ensures forall x :: x in r <==> x in ids && Eligible(db, x)
    ensures Distinct(r)
  {
    Keep(db, Dedup(ids))
  }

  function Keep(db: Db, ids: seq<Id>): (r: seq<Id>)
    requires Distinct(ids)
    ensures forall x :: x in r <==> x in ids && Eligible(db, x)
    ensures Distinct(r)
    decreases |ids|
  {
    if ids == [] then []
    else if Eligible(db, ids[0]) then [ids[0]] + Keep(db, ids[1..])
    else Keep(db, ids[1..])
  }

  /** Reference definition: the points the claims `es` credit to society `s`. */
  function CreditedTo(logged: map<Id, LoggedActivity>, es: seq<Id>, s: Id): int
    requires forall e :: e in es ==> e in logged
    decreases |es|
  {
    if es == [] then 0
    else (if logged[es[0]].societyId == s then logged[es[0]].value else 0) + CreditedTo(logged, es[1..], s)
  }

  /** Claims of non-negative value credit a non-negative amount. */
  lemma {:induction false} CreditedToNonNegative(logged: map<Id, LoggedActivity>, es: seq<Id>, s: Id)
    requires forall e :: e in es ==> e in logged && logged[e].value >= 0
    ensures CreditedTo(logged, es, s) >= 0
    decreases |es|
  {
    if es != [] {
      CreditedToNonNegative(logged, es[1..], s);
    }
  }

  /** Approving one claim: its status becomes `approved` and its society's
      earned counter is assigned the claim. */
  function ApproveOne(db: Db, id: Id): (r: Db)
    requires id in db.logged && db.logged[id].societyId in db.societies
    ensures r.logged == db.logged[id := db.logged[id].(status := Approved)]
    ensures r.societies.Keys == db.societies.Keys
  {
    var a := db.logged[id];
    db.(logged := db.logged[id := a.(status := Approved)],
        societies := db.societies[a.societyId := CreditTotal(db.societies[a.societyId], a.value)])
  }

  predicate Approvable(db: Db, es: seq<Id>)
  {
    forall e :: e in es ==> e in db.logged && db.logged[e].societyId in db.societies
  }

  /** The approval loop, one claim after the other. */
  function ApproveAll(db: Db, es: seq<Id>): Db
    requires Approvable(db, es)
    decreases |es|
  {
    if es == [] then db
    else
      var db' := ApproveOne(db, es[0]);
      assert Approvable(db', es[1..]);
      ApproveAll(db', es[1..])
  }

  /** `CreditedTo` reads only the value and society of each claim. */
  lemma {:induction false} CreditedToFrame(l1: map<Id, LoggedActivity>, l2: map<Id, LoggedActivity>,
                                           es: seq<Id>, s: Id)
    requires forall e :: e in es ==> e in l1 && e in l2
    requires forall e :: e in es ==> l1[e].value == l2[e].value && l1[e].societyId == l2[e].societyId
    ensures CreditedTo(l1, es, s) == CreditedTo(l2, es, s)
    decreases |es|
  {
    if es != [] {
      CreditedToFrame(l1, l2, es[1..], s);
    }
  }

  /** The store after approving the distinct claims `es` of `db`: exactly
      those claims are approved, every society's earned counter has grown
      by exactly the values of its approved claims (its used counter and
      other fields unchanged), and no other table has changed. */
  ghost predicate BatchEffect(db: Db, es: seq<Id>, after: Db)
    requires forall e :: e in es ==> e in db.logged
  {
    && after.logged.Keys == db.logged.Keys
    && (forall i :: i in db.logged ==>
          after.logged[i] == (if i in es then db.logged[i].(status := Approved) else db.logged[i]))
    && after.societies.Keys == db.societies.Keys
    && (forall s :: s in db.societies ==>
          after.societies[s] == CreditTotal(db.societies[s], CreditedTo(db.logged, es, s)))
    && after == db.(logged := after.logged, societies := after.societies)
  }

  /** The approval loop over distinct claims has exactly the batch effect. */
  lemma {:induction false} ApproveAllEffect(db: Db, es: seq<Id>)
    requires Approvable(db, es) && Distinct(es)
    ensures BatchEffect(db, es, ApproveAll(db, es))
    decreases |es|
  {
    if es != [] {
      var e := es[0];
      var rest := es[1..];
      var db1 := ApproveOne(db, e);
      assert e !in rest by {
        forall k | 0 <= k < |rest| ensures rest[k] != e {
          assert rest[k] == es[k + 1];
        }
      }
      assert Distinct(rest) by {
        forall i, j | 0 <= i < j < |rest| ensures rest[i] != rest[j] {
          assert rest[i] == es[i + 1] && rest[j] == es[j + 1];
        }
      }
      assert Approvable(db1, rest);
      ApproveAllEffect(db1, rest);
      var after := ApproveAll(db, es);
      assert after == ApproveAll(db1, rest);
      forall s | s in db.societies
        ensures after.societies[s] == CreditTotal(db.societies[s], CreditedTo(db.logged, es, s))
      {
        CreditedToFrame(db1.logged, db.logged, rest, s);
      }
      forall i | i in db.logged
        ensures after.logged[i] == (if i in es then db.logged[i].(status := Approved) else db.logged[i])
      {
        if i in rest {
          assert db1.logged[i] == db.logged[i];
        }
      }
    }
  }

  datatype Approval = Approval(db: Db, approved: set<Id>)

  /** Approving the distinct claims `es`, reporting them as approved. */
  function ApproveBatch(db: Db, es: seq<Id>): (a: Approval)
    requires Approvable(db, es) && Distinct(es)
    ensures a.approved == set x | x in es
    ensures BatchEffect(db, es, a.db)
  {
    ApproveAllEffect(db, es);
    Approval(ApproveAll(db, es), set x | x in es)
  }

  lemma EligibleSet(db: Db, ids: seq<Id>)
    ensures (set x | x in EligibleIds(db, ids)) == (set x | x in ids && Eligible(db, x))
  {
  }

  /** The approval handler. `ids` is `None` when the request carries no
      data or no identifier list. */
  function BulkApprove(db: Db, ids: Option<seq<Id>>): (r: Result<Approval, Error>)
    requires LoggedInSocieties(db)
    ensures ids.None? ==> r == Err(BadRequest)
    ensures ids.Some? && |ids.value| > MAX_BATCH ==> r == Err(Forbidden)
    ensures ids.Some? && ids.value == [] ==> r == Err(BadRequest)
    ensures (ids.Some? && |ids.value| <= MAX_BATCH
             && forall x :: x in ids.value ==> !Eligible(db, x)) ==> r == Err(BadRequest)
    ensures r.Ok? <==>
              ids.Some? && |ids.value| <= MAX_BATCH && exists x :: x in ids.value && Eligible(db, x)
    ensures r.Ok? ==>
              && r.value.approved == (set x | x in ids.value && Eligible(db, x))
              && BatchEffect(db, EligibleIds(db, ids.value), r.value.db)
  {
    if ids.None? then Err(BadRequest)
    else if |ids.value| > MAX_BATCH then Err(Forbidden)
    else if ids.value == [] then Err(BadRequest)
    else
      var es := EligibleIds(db, ids.value);
      if es == [] then
        Err(BadRequest)
      else
        assert es[0] in es;
        EligibleSet(db, ids.value);
        Ok(ApproveBatch(db, es))
  }

  /** On a successful batch each society's earned counter grows by exactly
      the values of its claims in the batch, and its used counter is
      untouched. */
  lemma BatchCredits(db: Db, ids: seq<Id>, s: Id)
    requires LoggedInSocieties(db) && s in db.societies
    requires BulkApprove(db, Some(ids)).Ok?
    ensures BulkApprove(db, Some(ids)).value.db.societies[s].totalPoints
              == db.societies[s].totalPoints + CreditedTo(db.logged, EligibleIds(db, ids), s)
    ensures BulkApprove(db, Some(ids)).value.db.societies[s].usedPoints == db.societies[s].usedPoints
  {
  }

  /** After a successful batch no approved claim is eligible any more, and
      the foreign keys still hold. */
  lemma ApprovedNotEligible(db: Db, ids: seq<Id>)
    requires LoggedInSocieties(db)
    requires BulkApprove(db, Some(ids)).Ok?
    ensures LoggedInSocieties(BulkApprove(db, Some(ids)).value.db)
    ensures forall x :: x in ids ==> !Eligible(BulkApprove(db, Some(ids)).value.db, x)
  {
    var es := EligibleIds(db, ids);
    var after := BulkApprove(db, Some(ids)).value.db;
    assert BatchEffect(db, es, after);
    forall x | x in ids ensures !Eligible(after, x) {
      if x in db.logged {
        assert after.logged[x] == (if x in es then db.logged[x].(status := Approved) else db.logged[x]);
      }
    }
  }

  /** At-most-once crediting: after a successful batch, the very same batch
      is refused and credits nothing. */
  lemma ApprovalNotRepeated(db: Db, ids: seq<Id>)
    requires LoggedInSocieties(db)
    requires BulkApprove(db, Some(ids)).Ok?
    ensures LoggedInSocieties(BulkApprove(db, Some(ids)).value.db)
    ensures BulkApprove(BulkApprove(db, Some(ids)).value.db, Some(ids)) == Err(BadRequest)
  {
    ApprovedNotEligible(db, ids);
  }

  /** Across two batches, no claim is approved (and so credited) by both. */
  lemma ApprovedSetsDisjoint(db: Db, ids1: seq<Id>, ids2: seq<Id>)
    requires LoggedInSocieties(db)
    requires BulkApprove(db, Some(ids1)).Ok?
    ensures LoggedInSocieties(BulkApprove(db, Some(ids1)).value.db)
    ensures var first := BulkApprove(db, Some(ids1)).value;
            BulkApprove(first.db, Some(ids2)).Ok? ==>
              first.approved !! BulkApprove(first.db, Some(ids2)).value.approved
  {
    ApprovedNotEligible(db, ids1);
    var first := BulkApprove(db, Some(ids1)).value;
    if BulkApprove(first.db, Some(ids2)).Ok? {
      var second := BulkApprove(first.db, Some(ids2)).value;
      assert forall x :: x in first.approved ==> x in ids1;
      assert forall x :: x in second.approved ==> Eligible(first.db, x);
    }
  }

  /** A batch of one eligible claim approves it and credits its value. */
  lemma SingleApproval(db: Db, x: Id)
    requires LoggedInSocieties(db) && Eligible(db, x)
    ensures BulkApprove(db, Some([x])).Ok?
    ensures LoggedInSocieties(BulkApprove(db, Some([x])).value.db)
    ensures BulkApprove(db, Some([x])).value.db.logged[x] == db.logged[x].(status := Approved)
    ensures BulkApprove(db, Some([x])).value.db.societies.Keys == db.societies.Keys
    ensures BulkApprove(db, Some([x])).value.db.societies[db.logged[x].societyId].totalPoints
              == db.societies[db.logged[x].societyId].totalPoints + db.logged[x].value
  {
    assert x in [x];
    assert [x][1..] == [];
    assert Dedup([x]) == [x];
    assert Keep(db, [x]) == [x];
    assert EligibleIds(db, [x]) == [x];
    assert CreditedTo(db.logged, [x], db.logged[x].societyId) == db.logged[x].value;
    assert BatchEffect(db, [x], BulkApprove(db, Some([x])).value.db);
  }

  /** Sending an approved, unredeemed claim back to `pending` makes it
      eligible for a batch again and leaves every counter as it was. */
  lemma ReopenedEligible(db: Db, x: Id)
    requires LoggedInSocieties(db)
    requires x in db.logged && db.logged[x].status == Approved && !db.logged[x].redeemed
    ensures LoggedActivities.SecretaryReview(db, x, Some(PENDING)).Ok?
    ensures var reviewed := LoggedActivities.SecretaryReview(db, x, Some(PENDING)).value;
            && LoggedInSocieties(reviewed)
            && Eligible(reviewed, x)
            && reviewed.societies == db.societies
            && reviewed.logged[x] == db.logged[x].(status := Pending)
  {
  }

  /** The secretary review has no guard on the current status, so an
      approved claim sent back to `pending` is approved and credited a
      second time. */
  lemma ReviewThenReapproveCreditsTwice(db: Db, x: Id)
    requires LoggedInSocieties(db)
    requires Eligible(db, x)
    ensures var s := db.logged[x].societyId;
            var first := BulkApprove(db, Some([x]));
            && first.Ok?
            && LoggedActivities.SecretaryReview(first.value.db, x, Some(PENDING)).Ok?
            && var reviewed := LoggedActivities.SecretaryReview(first.value.db, x, Some(PENDING)).value;
               && LoggedInSocieties(reviewed)
               && BulkApprove(reviewed, Some([x])).Ok?
               && s in BulkApprove(reviewed, Some([x])).value.db.societies
               && BulkApprove(reviewed, Some([x])).value.db.societies[s].totalPoints
                    == db.societies[s].totalPoints + 2 * db.logged[x].value
  {
    var s := db.logged[x].societyId;
    SingleApproval(db, x);
    var first := BulkApprove(db, Some([x])).value.db;
    ReopenedEligible(first, x);
    var reviewed := LoggedActivities.SecretaryReview(first, x, Some(PENDING)).value;
    assert reviewed.logged[x] == db.logged[x].(status := Pending);
    SingleApproval(reviewed, x);
    var second := BulkApprove(reviewed, Some([x])).value.db;
    assert second.societies[s].totalPoints == reviewed.societies[s].totalPoints + db.logged[x].value;
  }

  /** A rejected claim is never approved afterwards: it is no longer
      eligible, so a batch of just that claim is refused and credits
      nothing. */
  lemma RejectedNotEligible(db: Db, id: Option<Id>)
    requires LoggedInSocieties(db)
    requires LoggedActivities.Reject(db, id).Ok?
    ensures var after := LoggedActivities.Reject(db, id).value;
            && LoggedInSocieties(after)
            && !Eligible(after, id.value)
            && BulkApprove(after, Some([id.value])) == Err(BadRequest)
  {
    var after := LoggedActivities.Reject(db, id).value;
    assert after.logged[id.value].status == Rejected;
    assert LoggedInSocieties(after);
  }
}

=== FILE: entities.dfy ===
/**
 The records of the backend and the store that holds them.

 Every table the core reads or writes is a map from identifiers to
 immutable records; a handler maps one store to the next.
 */
module Entities {
  import opened Outcomes
  import opened Keys
  import opened Ledger

  /** Review status of a logged activity. The column is a string, but the
      handlers only ever write these four values. */
  datatype Status = InReview | Pending | Approved | Rejected

  datatype User = User(name: string, email: string, societyId: Option<Id>, roles: set<Id>)

  datatype Role = Role(name: string)

  datatype ActivityType = ActivityType(name: string, value: int, multipleParticipants: bool)

  /** A scheduled activity; its date is fixed when it is created. */
  datatype Activity = Activity(name: string, typeId: Id, date: int)

  datatype LoggedActivity = LoggedActivity(
    name: Option<string>,
    description: Option<string>,
    photo: Option<string>,
    userId: Id,
    societyId: Id,
    activityId: Option<Id>,
    typeId: Id,
    date: int,
    value: int,
    status: Status,
    redeemed: bool,
    participants: Option<int>)

  /** The status of a redemption is a free string: verification stores
      whatever status it is sent. */
  datatype RedemptionRequest = RedemptionRequest(
    name: string,
    description: Option<string>,
    userId: Id,
    societyId: Option<Id>,
    centerId: Option<Id>,
    value: int,
    status: string)

  datatype Cohort = Cohort(name: string, societyId: Option<Id>)

  datatype Center = Center(name: string)

  datatype Db = Db(
    users: map<Id, User>,
    roles: map<Id, Role>,
    societies: map<Id, Society>,
    activityTypes: map<Id, ActivityType>,
    activities: map<Id, Activity>,
    logged: map<Id, LoggedActivity>,
    redemptions: map<Id, RedemptionRequest>,
    cohorts: map<Id, Cohort>,
    centers: map<Id, Center>)

  const PENDING: string := "pending"
  const APPROVED: string := "approved"
  const REJECTED: string := "rejected"

  /** A logged activity as the submission handler builds it: the status and
      `redeemed` columns take their defaults and the participant count is
      left empty. */
  function NewLoggedActivity(name: Option<string>, description: Option<string>, photo: Option<string>,
                             userId: Id, societyId: Id, activityId: Option<Id>,
                             typeId: Id, date: int, value: int): (a: LoggedActivity)
    ensures a.status == InReview && !a.redeemed && a.participants.None?
    ensures a.userId == userId && a.societyId == societyId && a.typeId == typeId
    ensures a.activityId == activityId && a.date == date && a.value == value
  {
    LoggedActivity(name, description, photo, userId, societyId, activityId, typeId, date, value,
                   InReview, false, None)
  }

  /** A redemption request as the creation handler builds it: the status
      column takes its default "pending". */
  function NewRedemption(name: string, userId: Id, societyId: Option<Id>, centerId: Option<Id>,
                         value: int): (r: RedemptionRequest)
    ensures r.status == PENDING
    ensures r.name == name && r.userId == userId && r.societyId == societyId
    ensures r.centerId == centerId && r.value == value && r.description.None?
  {
    RedemptionRequest(name, None, userId, societyId, centerId, value, PENDING)
  }

  /** The foreign key from an activity to its type holds. */
  predicate ActivitiesTyped(types: map<Id, ActivityType>, activities: map<Id, Activity>)
  {
    forall a :: a in activities ==> activities[a].typeId in types
  }

  /** The foreign key from a logged activity to its society holds. */
  predicate LoggedInSocieties(db: Db)
  {
    forall i :: i in db.logged ==> db.logged[i].societyId in db.societies
  }

  /** The names of the roles the user holds. */
  function RoleNamesOf(db: Db, u: User): set<string>
  {
    set r | r in u.roles && r in db.roles :: db.roles[r].name
  }
}

=== FILE: keys.dfy ===
/**
 Row identifiers and the `.first()` lookup.

 The stores are maps from identifiers to records. A query followed by
 `.first()` without an ORDER BY returns some matching row; the model fixes
 that choice as the matching row with the least identifier, so that every
 lookup is a function.
 */
module Keys {
  import opened Outcomes

  type Id = nat

  lemma {:induction false} LeastExists(s: set<Id>)
    requires s != {}
    ensures exists m :: m in s && forall x :: x in s ==> m <= x
  {
    var y :| y in s;
    if s == {y} {
      assert forall x :: x in s ==> y <= x;
    } else {
      var rest := s - {y};
      LeastExists(rest);
      var m :| m in rest && forall x :: x in rest ==> m <= x;
      assert s == rest + {y};
      if y < m {
        assert forall x :: x in s ==> y <= x;
      } else {
        assert forall x :: x in s ==> m <= x;
      }
    }
  }

  /** The least identifier of a non-empty set. */
  function Least(s: set<Id>): (m: Id)
    requires s != {}
    ensures m in s
    ensures forall x :: x in s ==> m <= x
  {
    LeastExists(s);
    var m :| m in s && forall x :: x in s ==> m <= x;
    m
  }

  /** `.first()` over the rows whose identifiers are in `s`. */
  function First(s: set<Id>): (r: Option<Id>)
    ensures r.None? <==> s == {}
    ensures r.Some? ==> r.value in s && forall x :: x in s ==> r.value <= x
  {
    if s == {} then None else Some(Least(s))
  }
}

=== FILE: ledger.dfy ===
/**
 The points ledger embedded in a society.

 A society keeps two accumulate-only counters: the points ever earned
 (credited when a logged activity is approved) and the points ever used
 (debited when a redemption is approved). Both start at zero; each is
 written through a setter that adds the value of the item assigned to it;
 the remaining balance is derived as their difference and never stored.
 */
module Ledger {
  import opened Outcomes

  datatype Society = Society(
    name: string,
    colorScheme: string,
    // `color` is not a column: the society edit handler assigns it as a
    // plain attribute, so the model keeps it apart from `colorScheme`.
    color: Option<string>,
    logo: Option<string>,
    photo: Option<string>,
    totalPoints: int,
    usedPoints: int)

  /** Points still available for redemption. */
  function Remaining(s: Society): int
  {
    s.totalPoints - s.usedPoints
  }

  /** A freshly created society: both counters take their default 0. */
  function NewSociety(name: string, colorScheme: string, logo: Option<string>, photo: Option<string>): (s: Society)
    ensures s.totalPoints == 0 && s.usedPoints == 0
    ensures Remaining(s) == 0
    ensures s.name == name && s.colorScheme == colorScheme && s.logo == logo && s.photo == photo
    ensures s.color.None?
  {
    Society(name, colorScheme, None, logo, photo, 0, 0)
  }

  /** `society.total_points = item`: adds the item's value to the earned
      counter and touches nothing else. */
  function CreditTotal(s: Society, value: int): (s': Society)
    ensures s'.totalPoints == s.totalPoints + value
    ensures s'.usedPoints == s.usedPoints
    ensures s'.(totalPoints := s.totalPoints) == s
    ensures Remaining(s') == Remaining(s) + value
  {
    s.(totalPoints := s.totalPoints + value)
  }

  /** `society.used_points = request`: adds the request's value to the used
      counter and touches nothing else. */
  function CreditUsed(s: Society, value: int): (s': Society)
    ensures s'.usedPoints == s.usedPoints + value
    ensures s'.totalPoints == s.totalPoints
    ensures s'.(usedPoints := s.usedPoints) == s
    ensures Remaining(s') == Remaining(s) - value
  {
    s.(usedPoints := s.usedPoints + value)
  }

  /** One assignment to either setter. */
  datatype Credit = Earned(value: int) | Spent(value: int)

  function Apply(s: Society, c: Credit): Society
  {
    match c
    case Earned(v) => CreditTotal(s, v)
    case Spent(v) => CreditUsed(s, v)
  }

  /** The society after a sequence of setter assignments, in order. */
  function ApplyAll(s: Society, cs: seq<Credit>): Society
    decreases |cs|
  {
    if cs == [] then s else ApplyAll(Apply(s, cs[0]), cs[1..])
  }

  function EarnedSum(cs: seq<Credit>): int
    decreases |cs|
  {
    if cs == [] then 0 else (if cs[0].Earned? then cs[0].value else 0) + EarnedSum(cs[1..])
  }

  function SpentSum(cs: seq<Credit>): int
    decreases |cs|
  {
    if cs == [] then 0 else (if cs[0].Spent? then cs[0].value else 0) + SpentSum(cs[1..])
  }

  /** After any sequence of credits the earned counter has grown by exactly
      the earned values, the used counter by exactly the spent values, the
      remaining balance by their difference, and no other field has moved. */
  lemma {:induction false} ApplyAllTotals(s: Society, cs: seq<Credit>)
    ensures ApplyAll(s, cs).totalPoints == s.totalPoints + EarnedSum(cs)
    ensures ApplyAll(s, cs).usedPoints == s.usedPoints + SpentSum(cs)
    ensures Remaining(ApplyAll(s, cs)) == Remaining(s) + EarnedSum(cs) - SpentSum(cs)
    ensures ApplyAll(s, cs).(totalPoints := s.totalPoints, usedPoints := s.usedPoints) == s
    decreases |cs|
  {
    if cs != [] {
      ApplyAllTotals(Apply(s, cs[0]), cs[1..]);
    }
  }

  /** No credit subtracts: with non-negative values both counters only grow. */
  lemma {:induction false} ApplyAllMonotone(s: Society, cs: seq<Credit>)
    requires forall i :: 0 <= i < |cs| ==> cs[i].value >= 0
    ensures ApplyAll(s, cs).totalPoints >= s.totalPoints
    ensures ApplyAll(s, cs).usedPoints >= s.usedPoints
    decreases |cs|
  {
    if cs != [] {
      ApplyAllMonotone(Apply(s, cs[0]), cs[1..]);
    }
  }

  /** A society with 100 earned and 30 used points that has a 40-point
      redemption approved ends with 70 used and 30 remaining. */
  lemma RedemptionScenario(s: Society)
    requires s.totalPoints == 100 && s.usedPoints == 30
    ensures CreditUsed(s, 40).usedPoints == 70
    ensures Remaining(CreditUsed(s, 40)) == 30
  {
  }
}

=== FILE: logged_activities.dfy ===
/**
 The logged-activity lifecycle, apart from bulk approval.

 A member submits a claim, which starts `in review`; the owner may edit or
 delete it only while it is still `in review`; a society secretary sets it
 to `pending` or `rejected`; success ops reject a `pending` claim or ask
 for more information, which never changes its status.
 */
module LoggedActivities {
  import opened Outcomes
  import opened Keys
  import opened Entities
  import opened Schemas
  import opened Valuation

  /** The activity type whose claims also store a participant count. */
  const BOOTCAMP_INTERVIEWS: string := "Bootcamp Interviews"

  /** The stored claim the submission handler builds for `caller` from a
      successful valuation. */
  function Claim(db: Db, caller: Id, society: Id, input: LogInput, p: Parsed): (a: LoggedActivity)
    requires p.typeId in db.activityTypes
    ensures a.status == InReview && !a.redeemed
    ensures a.userId == caller && a.societyId == society
    ensures a.value == p.value && a.typeId == p.typeId && a.date == p.date && a.activityId == p.activityId
    ensures a.participants ==
              (if db.activityTypes[p.typeId].name == BOOTCAMP_INTERVIEWS then input.participants else None)
  {
    var a := NewLoggedActivity(input.name, input.description, input.photo, caller, society,
                               p.activityId, p.typeId, p.date, p.value);
    if db.activityTypes[p.typeId].name == BOOTCAMP_INTERVIEWS then a.(participants := input.participants)
    else a
  }

  /** The claim is of the "Bootcamp Interviews" type, whose count the
      submission handler reads without a default. */
  predicate IsBootcamp(db: Db, typeId: Id)
  {
    typeId in db.activityTypes && db.activityTypes[typeId].name == BOOTCAMP_INTERVIEWS
  }

  /** Logging a new activity. `payload` is `None` when the request carries
      no data; `newId` is the identifier the new row receives. */
  function Submit(db: Db, caller: Id, today: int, payload: Option<LogInput>, newId: Id): (r: Result<Db, Error>)
    requires caller in db.users
    requires newId !in db.logged
    requires ActivitiesTyped(db.activityTypes, db.activities)
    ensures payload.None? ==> r == Err(BadRequest)
    ensures payload.Some? && ValidateLogInput(db.activityTypes, payload.value).Fail? ==> r == Err(BadRequest)
    ensures (payload.Some? && ValidateLogInput(db.activityTypes, payload.value).Pass?
             && db.users[caller].societyId.None?) ==> r == Err(Unprocessable)
    ensures payload.Some? && ValidateLogInput(db.activityTypes, payload.value).Pass?
              && db.users[caller].societyId.Some?
              && Value(db.activityTypes, db.activities, payload.value, today).Err? ==>
              r == Err(Kind(Value(db.activityTypes, db.activities, payload.value, today).error))
    ensures payload.Some? && ValidateLogInput(db.activityTypes, payload.value).Pass?
              && db.users[caller].societyId.Some?
              && Value(db.activityTypes, db.activities, payload.value, today).Ok?
              && IsBootcamp(db, Value(db.activityTypes, db.activities, payload.value, today).value.typeId) ==>
              && (payload.value.participants.None? ==> r == Err(Internal))
              && (payload.value.participants == Some(0) ==> r == Err(BadRequest))
    ensures r.Ok? <==>
              && payload.Some? && ValidateLogInput(db.activityTypes, payload.value).Pass?
              && db.users[caller].societyId.Some?
              && Value(db.activityTypes, db.activities, payload.value, today).Ok?
              && (IsBootcamp(db, Value(db.activityTypes, db.activities, payload.value, today).value.typeId) ==>
                    GivenInt(payload.value.participants))
    ensures r.Ok? ==>
              && payload.Some? && db.users[caller].societyId.Some?
              && Value(db.activityTypes, db.activities, payload.value, today).Ok?
              && newId in r.value.logged
              && var p := Value(db.activityTypes, db.activities, payload.value, today).value;
                 var a := r.value.logged[newId];
                 && r.value == db.(logged := db.logged[newId := a])
                 && a.status == InReview && !a.redeemed
                 && a.userId == caller && a.societyId == db.users[caller].societyId.value
                 && a.value == p.value && a.typeId == p.typeId && a.date == p.date
                 && a.activityId == p.activityId
  {
    if payload.None? then Err(BadRequest)
    else
      var input := payload.value;
      if ValidateLogInput(db.activityTypes, input).Fail? then Err(BadRequest)
      else if db.users[caller].societyId.None? then Err(Unprocessable)
      else
        match Value(db.activityTypes, db.activities, input, today)
        case Err(e) => Err(Kind(e))
        case Ok(p) =>
          var bootcamp := IsBootcamp(db, p.typeId);
          if bootcamp && input.participants.None? then Err(Internal)
          else if bootcamp && input.participants.value == 0 then Err(BadRequest)
          else
            var a := Claim(db, caller, db.users[caller].societyId.value, input, p);
            Ok(db.(logged := db.logged[newId := a]))
  }

  /** The claim exists and belongs to `caller`: the edit and delete handlers
      only look among the caller's own claims. */
  predicate Owns(db: Db, caller: Id, id: Id)
  {
    id in db.logged && db.logged[id].userId == caller
  }

  /** Editing a claim: the payload is validated as on submission, then the
      missing type identifier and date are taken from the stored claim and
      the claim is valued afresh. */
  function Edit(db: Db, caller: Id, today: int, id: Id, payload: Option<LogInput>): (r: Result<Db, Error>)
    requires ActivitiesTyped(db.activityTypes, db.activities)
    ensures payload.None? ==> r == Err(BadRequest)
    ensures payload.Some? && ValidateLogInput(db.activityTypes, payload.value).Pass? && !Owns(db, caller, id) ==>
              r == Err(NotFound)
    ensures (payload.Some? && ValidateLogInput(db.activityTypes, payload.value).Pass? && Owns(db, caller, id)
             && db.logged[id].status != InReview) ==> r == Err(Unauthorized)
    ensures payload.Some? && ValidateLogInput(db.activityTypes, payload.value).Fail? ==> r == Err(BadRequest)
    ensures (payload.Some? && ValidateLogInput(db.activityTypes, payload.value).Pass? && Owns(db, caller, id)
             && db.logged[id].status == InReview) ==>
              var v := Value(db.activityTypes, db.activities, Filled(payload.value, db.logged[id]), today);
              && (v.Err? ==> r == Err(Kind(v.error)))
              && (r.Ok? <==> v.Ok?)
    ensures r.Ok? <==>
              && payload.Some? && ValidateLogInput(db.activityTypes, payload.value).Pass?
              && Owns(db, caller, id) && db.logged[id].status == InReview
              && Value(db.activityTypes, db.activities, Filled(payload.value, db.logged[id]), today).Ok?
    ensures r.Ok? ==>
              && Owns(db, caller, id) && db.logged[id].status == InReview && payload.Some?
              && r.value.logged.Keys == db.logged.Keys
              && r.value == db.(logged := r.value.logged)
              && (forall j :: j in db.logged && j != id ==> r.value.logged[j] == db.logged[j])
              && var before := db.logged[id];
                 var after := r.value.logged[id];
                 var p := Value(db.activityTypes, db.activities, Filled(payload.value, before), today);
                 && p.Ok?
                 && after.value == p.value.value && after.typeId == p.value.typeId && after.date == p.value.date
                 && after.activityId == p.value.activityId
                 && after.name == payload.value.name && after.description == payload.value.description
                 && after.photo == payload.value.photo
                 && after.status == InReview && after.redeemed == before.redeemed
                 && after.userId == before.userId && after.societyId == before.societyId
                 && after.participants == before.participants
  {
    if payload.None? then Err(BadRequest)
    else
      var input := payload.value;
      if ValidateLogInput(db.activityTypes, input).Fail? then Err(BadRequest)
      else if !Owns(db, caller, id) then Err(NotFound)
      else
        var a := db.logged[id];
        if a.status != InReview then Err(Unauthorized)
        else
          match Value(db.activityTypes, db.activities, Filled(input, a), today)
          case Err(e) => Err(Kind(e))
          case Ok(p) =>
            var a' := a.(name := input.name, description := input.description, photo := input.photo,
                         activityId := p.activityId, value := p.value, typeId := p.typeId, date := p.date);
            Ok(db.(logged := db.logged[id := a']))
  }

  /** The edit payload with an absent type identifier or date filled in from
      the stored claim. */
  function Filled(input: LogInput, a: LoggedActivity): (f: LogInput)
    ensures f.typeId.Some? && f.date.Some?
    ensures input.typeId.Some? ==> f.typeId == input.typeId
    ensures input.date.Some? ==> f.date == input.date
    ensures f.activityId == input.activityId && f.participants == input.participants
    ensures f.description == input.description
  {
    input.(typeId := if input.typeId.None? then Some(a.typeId) else input.typeId,
           date := if input.date.None? then Some(a.date) else input.date)
  }

  /** Deleting one of the caller's own claims, allowed only while it is
      `in review`. */
  function Delete(db: Db, caller: Id, id: Id): (r: Result<Db, Error>)
    ensures !Owns(db, caller, id) ==> r == Err(NotFound)
    ensures Owns(db, caller, id) && db.logged[id].status != InReview ==> r == Err(Forbidden)
    ensures r.Ok? <==> Owns(db, caller, id) && db.logged[id].status == InReview
    ensures r.Ok? ==> r.value == db.(logged := db.logged - {id}) && id !in r.value.logged
  {
    if !Owns(db, caller, id) then Err(NotFound)
    else if db.logged[id].status != InReview then Err(Forbidden)
    else Ok(db.(logged := db.logged - {id}))
  }

  /** A claim that has left `in review` can be neither edited nor deleted by
      its owner. */
  lemma ReviewedClaimFrozen(db: Db, caller: Id, today: int, id: Id, payload: Option<LogInput>)
    requires ActivitiesTyped(db.activityTypes, db.activities)
    requires id in db.logged && db.logged[id].status != InReview
    ensures Edit(db, caller, today, id, payload).Err?
    ensures Delete(db, caller, id).Err?
  {
  }

  /** The secretary review: `status` is `None` when the key is absent. Only
      "pending" and "rejected" are accepted, and the claim's current status
      is not consulted. */
  function SecretaryReview(db: Db, id: Id, status: Option<string>): (r: Result<Db, Error>)
    ensures status.None? ==> r == Err(BadRequest)
    ensures status.Some? && id !in db.logged ==> r == Err(NotFound)
    ensures r.Ok? <==> status.Some? && id in db.logged && status.value in {PENDING, REJECTED}
    ensures r.Ok? ==>
              && r.value.logged.Keys == db.logged.Keys
              && r.value == db.(logged := r.value.logged)
              && r.value.logged[id] == db.logged[id].(status := r.value.logged[id].status)
              && (status.value == PENDING ==> r.value.logged[id].status == Pending)
              && (status.value == REJECTED ==> r.value.logged[id].status == Rejected)
              && (forall j :: j in db.logged && j != id ==> r.value.logged[j] == db.logged[j])
  {
    if status.None? then Err(BadRequest)
    else if id !in db.logged then Err(NotFound)
    else if status.value == PENDING then Ok(db.(logged := db.logged[id := db.logged[id].(status := Pending)]))
    else if status.value == REJECTED then Ok(db.(logged := db.logged[id := db.logged[id].(status := Rejected)]))
    else Err(BadRequest)
  }

  datatype ReviewInput = ReviewInput(status: Option<string>)

  /** The secretary review route. Here `payload` is `None` only when the
      request has no JSON body at all, which the handler does not expect:
      testing for the status key on it raises. An empty object reaches the
      review and is refused there for the missing key. */
  function ReviewRoute(db: Db, id: Id, payload: Option<ReviewInput>): (r: Result<Db, Error>)
    ensures payload.None? ==> r == Err(Internal)
    ensures payload == Some(ReviewInput(None)) ==> r == Err(BadRequest)
    ensures payload.Some? ==> r == SecretaryReview(db, id, payload.value.status)
  {
    if payload.None? then Err(Internal) else SecretaryReview(db, id, payload.value.status)
  }

  /** The secretary review has no guard on the current status: a claim that
      is already approved goes back to `pending`. */
  lemma ReviewReopensApproved(db: Db, id: Id)
    requires id in db.logged && db.logged[id].status == Approved
    ensures SecretaryReview(db, id, Some(PENDING)).Ok?
    ensures SecretaryReview(db, id, Some(PENDING)).value.logged[id].status == Pending
  {
  }

  /** Rejecting a single claim, allowed only from `pending`. `id` is `None`
      when the route carries no identifier. */
  function Reject(db: Db, id: Option<Id>): (r: Result<Db, Error>)
    ensures id.None? ==> r == Err(BadRequest)
    ensures id.Some? && id.value !in db.logged ==> r == Err(NotFound)
    ensures id.Some? && id.value in db.logged && db.logged[id.value].status != Pending ==> r == Err(Forbidden)
    ensures r.Ok? <==> id.Some? && id.value in db.logged && db.logged[id.value].status == Pending
    ensures r.Ok? ==>
              && r.value == db.(logged := db.logged[id.value := db.logged[id.value].(status := Rejected)])
              && r.value.societies == db.societies
  {
    if id.None? then Err(BadRequest)
    else if id.value !in db.logged then Err(NotFound)
    else if db.logged[id.value].status == Pending then
      Ok(db.(logged := db.logged[id.value := db.logged[id.value].(status := Rejected)]))
    else Err(Forbidden)
  }

  /** The e-mail the info request queues for the claim's owner. */
  datatype Notice = InfoRequested(recipient: Id, claim: Id, comment: string)

  datatype InfoInput = InfoInput(comment: Option<string>)

  /** The user exists and belongs to a stored society. */
  predicate HasSociety(db: Db, user: Id)
  {
    user in db.users && db.users[user].societyId.Some? && db.users[user].societyId.value in db.societies
  }

  /** Asking for more information on a claim. It produces a notice for the
      owner and no new store: no status and no counter changes. The subject
      line names the owner's society, so an owner without one makes the
      handler fail. */
  function RequestInfo(db: Db, id: Option<Id>, payload: Option<InfoInput>): (r: Result<Notice, Error>)
    ensures payload.None? ==> r == Err(BadRequest)
    ensures payload.Some? && id.None? ==> r == Err(BadRequest)
    ensures payload.Some? && id.Some? && id.value !in db.logged ==> r == Err(NotFound)
    ensures r.Ok? ==>
              && id.Some? && id.value in db.logged && payload.Some? && Given(payload.value.comment)
              && r.value == InfoRequested(db.logged[id.value].userId, id.value, payload.value.comment.value)
    ensures payload.Some? && id.Some? && id.value in db.logged && !Given(payload.value.comment) ==>
              r == Err(BadRequest)
    ensures r.Ok? <==>
              && payload.Some? && id.Some? && id.value in db.logged && Given(payload.value.comment)
              && HasSociety(db, db.logged[id.value].userId)
    ensures (payload.Some? && id.Some? && id.value in db.logged && Given(payload.value.comment)
             && !HasSociety(db, db.logged[id.value].userId)) ==> r == Err(Internal)
  {
    if payload.None? then Err(BadRequest)
    else if id.None? then Err(BadRequest)
    else if id.value !in db.logged then Err(NotFound)
    else
      var owner := db.logged[id.value].userId;
      if !Given(payload.value.comment) then Err(BadRequest)
      else if !HasSociety(db, owner) then Err(Internal)
      else Ok(InfoRequested(owner, id.value, payload.value.comment.value))
  }

  /** Reference definition of a member's earned points: the sum of the
      values of their approved claims among the rows in `keys`. */
  ghost function ApprovedSum(logged: map<Id, LoggedActivity>, user: Id, keys: set<Id>): int
    requires keys <= logged.Keys
    decreases keys
  {
    if keys == {} then 0
    else
      var k :| k in keys;
      Contribution(logged, user, k) + ApprovedSum(logged, user, keys - {k})
  }

  /** What row `k` adds to the member's earned points. */
  function Contribution(logged: map<Id, LoggedActivity>, user: Id, k: Id): int
    requires k in logged
  {
    if logged[k].userId == user && logged[k].status == Approved then logged[k].value else 0
  }

  /** The sum does not depend on the order rows are taken in: any row can be
      split off first. */
  lemma {:induction false} ApprovedSumSplit(logged: map<Id, LoggedActivity>, user: Id, keys: set<Id>, k: Id)
    requires keys <= logged.Keys && k in keys
    ensures ApprovedSum(logged, user, keys) ==
              Contribution(logged, user, k) + ApprovedSum(logged, user, keys - {k})
    decreases keys
  {
    var j :| j in keys && ApprovedSum(logged, user, keys) ==
                Contribution(logged, user, j) + ApprovedSum(logged, user, keys - {j});
    if j != k {
      ApprovedSumSplit(logged, user, keys - {j}, k);
      ApprovedSumSplit(logged, user, keys - {k}, j);
      assert keys - {j} - {k} == keys - {k} - {j};
    }
  }

  /** The earned points the member page reports: the sum over the member's
      approved claims, 0 when there are none; an unknown member is 404. */
  method PointsEarned(db: Db, user: Id) returns (r: Result<int, Error>)
    ensures user !in db.users ==> r == Err(NotFound)
    ensures user in db.users ==> r == Ok(ApprovedSum(db.logged, user, db.logged.Keys))
  {
    if user !in db.users {
      return Err(NotFound);
    }
    var rest := db.logged.Keys;
    var total := 0;
    while rest != {}
      invariant rest <= db.logged.Keys
      invariant total + ApprovedSum(db.logged, user, rest) == ApprovedSum(db.logged, user, db.logged.Keys)
      decreases rest
    {
      var k :| k in rest;
      ApprovedSumSplit(db.logged, user, rest, k);
      total := total + Contribution(db.logged, user, k);
      rest := rest - {k};
    }
    return Ok(total);
  }

  /** A member none of whose claims is approved has earned 0 points. */
  lemma {:induction false} NoApprovedNoPoints(logged: map<Id, LoggedActivity>, user: Id, keys: set<Id>)
    requires keys <= logged.Keys
    requires forall k :: k in keys ==> logged[k].userId != user || logged[k].status != Approved
    ensures ApprovedSum(logged, user, keys) == 0
    decreases keys
  {
    if keys != {} {
      var k :| k in keys;
      ApprovedSumSplit(logged, user, keys, k);
      NoApprovedNoPoints(logged, user, keys - {k});
    }
  }

  /** The sum only reads the rows it sums: two stores that agree on `keys`
      give the same sum. */
  lemma {:induction false} ApprovedSumFrame(l1: map<Id, LoggedActivity>, l2: map<Id, LoggedActivity>,
                                            user: Id, keys: set<Id>)
    requires keys <= l1.Keys && keys <= l2.Keys
    requires forall k :: k in keys ==> l1[k] == l2[k]
    ensures ApprovedSum(l1, user, keys) == ApprovedSum(l2, user, keys)
    decreases keys
  {
    if keys != {} {
      var k :| k in keys;
      ApprovedSumSplit(l1, user, keys, k);
      ApprovedSumSplit(l2, user, keys, k);
      ApprovedSumFrame(l1, l2, user, keys - {k});
    }
  }

  /** Replacing a row that is not approved by another row that is not
      approved leaves every member's earned points as they were. */
  lemma ReplaceUnapprovedKeepsSum(logged: map<Id, LoggedActivity>, user: Id, k: Id, a: LoggedActivity)
    requires k in logged && logged[k].status != Approved && a.status != Approved
    ensures ApprovedSum(logged[k := a], user, logged.Keys) == ApprovedSum(logged, user, logged.Keys)
  {
    var after := logged[k := a];
    assert after.Keys == logged.Keys;
    ApprovedSumSplit(after, user, logged.Keys, k);
    ApprovedSumSplit(logged, user, logged.Keys, k);
    ApprovedSumFrame(after, logged, user, logged.Keys - {k});
  }

  /** A submission touches no society counter and no member's earned points:
      the new claim is `in review`, and nothing else changes. */
  lemma SubmitKeepsEarnedPoints(db: Db, caller: Id, today: int, payload: Option<LogInput>, newId: Id, user: Id)
    requires caller in db.users && newId !in db.logged && ActivitiesTyped(db.activityTypes, db.activities)
    requires Submit(db, caller, today, payload, newId).Ok?
    ensures Submit(db, caller, today, payload, newId).value.societies == db.societies
    ensures var after := Submit(db, caller, today, payload, newId).value;
            ApprovedSum(after.logged, user, after.logged.Keys) == ApprovedSum(db.logged, user, db.logged.Keys)
  {
    var after := Submit(db, caller, today, payload, newId).value;
    assert after.logged.Keys - {newId} == db.logged.Keys;
    ApprovedSumSplit(after.logged, user, after.logged.Keys, newId);
    ApprovedSumFrame(after.logged, db.logged, user, db.logged.Keys);
  }

  /** An edit touches no society counter and no member's earned points: the
      claim is `in review` before and after. */
  lemma EditKeepsEarnedPoints(db: Db, caller: Id, today: int, id: Id, payload: Option<LogInput>, user: Id)
    requires ActivitiesTyped(db.activityTypes, db.activities)
    requires Edit(db, caller, today, id, payload).Ok?
    ensures Edit(db, caller, today, id, payload).value.societies == db.societies
    ensures var after := Edit(db, caller, today, id, payload).value;
            ApprovedSum(after.logged, user, after.logged.Keys) == ApprovedSum(db.logged, user, db.logged.Keys)
  {
    var after := Edit(db, caller, today, id, payload).value;
    assert after.logged == db.logged[id := after.logged[id]];
    ReplaceUnapprovedKeepsSum(db.logged, user, id, after.logged[id]);
  }

  /** A rejection touches no society counter and no member's earned points:
      only a `pending` claim is rejected. */
  lemma RejectKeepsEarnedPoints(db: Db, id: Option<Id>, user: Id)
    requires Reject(db, id).Ok?
    ensures Reject(db, id).value.societies == db.societies
    ensures var after := Reject(db, id).value;
            ApprovedSum(after.logged, user, after.logged.Keys) == ApprovedSum(db.logged, user, db.logged.Keys)
  {
    var after := Reject(db, id).value;
    assert after.logged == db.logged[id.value := after.logged[id.value]];
    assert after.logged.Keys == db.logged.Keys;
    ReplaceUnapprovedKeepsSum(db.logged, user, id.value, after.logged[id.value]);
  }
}

=== FILE: outcomes.dfy ===
/**
 Shared result types of the model.

 A handler of the backend answers with an HTTP status; here every refusal
 becomes an `Error` constructor named after the status it stands for, and
 every handler returns a `Result` instead of building a response.
 */
module Outcomes {

  datatype Option<+T> = None | Some(value: T)

  /** One constructor per status code the handlers refuse with. */
  datatype Error =
    | BadRequest     // 400
    | Unauthorized   // 401
    | Forbidden      // 403
    | NotFound       // 404
    | Conflict       // 409
    | Unprocessable  // 422
    | Internal       // 500: an uncaught KeyError, AttributeError or TypeError

  datatype Result<+T, +E> = Ok(value: T) | Err(error: E)

  /** Pass, or the first rule a validator found broken. */
  datatype Outcome<+E> = Pass | Fail(error: E)

  /** The HTTP status code an error stands for. */
  function Code(e: Error): int
  {
    match e
    case BadRequest => 400
    case Unauthorized => 401
    case Forbidden => 403
    case NotFound => 404
    case Conflict => 409
    case Unprocessable => 422
    case Internal => 500
  }

  /** Python truthiness of an optional JSON string: present and non-empty. */
  predicate Given(s: Option<string>)
  {
    s.Some? && s.value != ""
  }

  /** Python truthiness of an optional JSON integer: present and non-zero. */
  predicate GivenInt(n: Option<int>)
  {
    n.Some? && n.value != 0
  }
}

=== FILE: redemptions.dfy ===
/**
 The redemption lifecycle: a society president asks to convert society
 points into a reward; success ops approve the request, which debits the
 used-points counter of the requester's society, or store any other status.

 The handlers check neither the current status nor the owning society of a
 request before editing, deleting or verifying it. The pending-only,
 society-scoped lookup exists as a separate helper (`GetRedemptionRequest`)
 that none of these handlers calls; the lemmas at the end state what each
 variant guarantees.
 */
module Redemptions {
  import opened Outcomes
  import opened Keys
  import opened Ledger
  import opened Entities

  /** A creation payload; absent keys are `None`. */
  datatype CreateInput = CreateInput(reason: Option<string>, value: Option<int>, center: Option<string>)

  /** The centre named `name`, as `.first()` finds it. */
  function CenterNamed(db: Db, name: Option<string>): (r: Option<Id>)
    ensures r.Some? ==> r.value in db.centers && Some(db.centers[r.value].name) == name
    ensures r.None? <==> forall c :: c in db.centers ==> Some(db.centers[c].name) != name
  {
    var named := set c | c in db.centers && Some(db.centers[c].name) == name;
    assert forall c :: c in db.centers && Some(db.centers[c].name) == name ==> c in named;
    First(named)
  }

  /** A request row can only be stored with both its society and its centre:
      the two columns are not nullable, and a failed insert is rolled back
      without the handler noticing. */
  predicate Storable(r: RedemptionRequest)
  {
    r.societyId.Some? && r.centerId.Some?
  }

  /** The request the creation handler builds for `caller`. */
  function Requested(db: Db, caller: Id, input: CreateInput): (q: RedemptionRequest)
    requires caller in db.users
    requires input.reason.Some? && input.value.Some?
    ensures q.status == PENDING
    ensures q.userId == caller && q.societyId == db.users[caller].societyId
    ensures q.name == input.reason.value && q.value == input.value.value
    ensures q.centerId == CenterNamed(db, input.center)
  {
    NewRedemption(input.reason.value, caller, db.users[caller].societyId, CenterNamed(db, input.center),
                  input.value.value)
  }

  /** Creating a request. It needs a truthy reason, value and centre name;
      it is attached to the caller and the caller's society, and the value
      is not compared with the society's remaining points. */
  function Create(db: Db, caller: Id, payload: Option<CreateInput>, newId: Id): (r: Result<Db, Error>)
    requires caller in db.users
    requires newId !in db.redemptions
    ensures r.Ok? <==>
              payload.Some? && Given(payload.value.reason) && GivenInt(payload.value.value)
              && Given(payload.value.center)
    ensures r.Err? ==> r.error == BadRequest
    ensures r.Ok? ==>
              && r.value.(redemptions := db.redemptions) == db
              && (newId in r.value.redemptions <==>
                    db.users[caller].societyId.Some? && CenterNamed(db, payload.value.center).Some?)
              && (forall j :: j in db.redemptions ==> j in r.value.redemptions && r.value.redemptions[j] == db.redemptions[j])
              && (forall j :: j in r.value.redemptions && j != newId ==> j in db.redemptions)
              && (newId in r.value.redemptions ==>
                    var q := r.value.redemptions[newId];
                    && q.status == PENDING && q.userId == caller
                    && q.societyId == db.users[caller].societyId
                    && q.name == payload.value.reason.value && q.value == payload.value.value.value
                    && q.centerId.Some? && q.centerId.value in db.centers
                    && db.centers[q.centerId.value].name == payload.value.center.value)
  {
    if payload.None? then Err(BadRequest)
    else
      var input := payload.value;
      if Given(input.reason) && GivenInt(input.value) && Given(input.center) then
        var q := Requested(db, caller, input);
        if Storable(q) then Ok(db.(redemptions := db.redemptions[newId := q]))
        else Ok(db)
      else Err(BadRequest)
  }

  /** An edit payload; absent keys are `None`. */
  datatype EditInput = EditInput(name: Option<string>, value: Option<int>, description: Option<string>)

  /** Editing a request field by field: each of name, value and description
      is replaced only when it is supplied and truthy. `id` is `None` when
      the route carries no identifier. */
  function Edit(db: Db, id: Option<Id>, payload: Option<EditInput>): (r: Result<Db, Error>)
    ensures payload.None? ==> r == Err(BadRequest)
    ensures payload.Some? && id.None? ==> r == Err(BadRequest)
    ensures payload.Some? && id.Some? && id.value !in db.redemptions ==> r == Err(NotFound)
    ensures r.Ok? <==> payload.Some? && id.Some? && id.value in db.redemptions
    ensures r.Ok? ==>
              && r.value.redemptions.Keys == db.redemptions.Keys
              && r.value == db.(redemptions := r.value.redemptions)
              && (forall j :: j in db.redemptions && j != id.value ==> r.value.redemptions[j] == db.redemptions[j])
              && var before := db.redemptions[id.value];
                 var after := r.value.redemptions[id.value];
                 var input := payload.value;
                 && after.name == (if Given(input.name) then input.name.value else before.name)
                 && after.value == (if GivenInt(input.value) then input.value.value else before.value)
                 && after.description == (if Given(input.description) then input.description else before.description)
                 && after.(name := before.name, value := before.value, description := before.description) == before
  {
    if payload.None? then Err(BadRequest)
    else if id.None? then Err(BadRequest)
    else if id.value !in db.redemptions then Err(NotFound)
    else
      var input := payload.value;
      var q := db.redemptions[id.value];
      var q1 := if Given(input.name) then q.(name := input.name.value) else q;
      var q2 := if GivenInt(input.value) then q1.(value := input.value.value) else q1;
      var q3 := if Given(input.description) then q2.(description := input.description) else q2;
      Ok(db.(redemptions := db.redemptions[id.value := q3]))
  }

  /** Deleting a request; its status is not consulted. */
  function Delete(db: Db, id: Option<Id>): (r: Result<Db, Error>)
    ensures id.None? ==> r == Err(BadRequest)
    ensures id.Some? && id.value !in db.redemptions ==> r == Err(NotFound)
    ensures r.Ok? <==> id.Some? && id.value in db.redemptions
    ensures r.Ok? ==>
              && id.value !in r.value.redemptions
              && r.value.redemptions.Keys == db.redemptions.Keys - {id.value}
              && r.value == db.(redemptions := r.value.redemptions)
              && (forall j :: j in r.value.redemptions ==> r.value.redemptions[j] == db.redemptions[j])
  {
    if id.None? then Err(BadRequest)
    else if id.value !in db.redemptions then Err(NotFound)
    else Ok(db.(redemptions := db.redemptions - {id.value}))
  }

  /** A verification payload; `status` is `None` when the key is absent. */
  datatype VerifyInput = VerifyInput(status: Option<string>)

  /** The society whose used points an approval of request `id` debits: the
      current society of the request's user, which need not be the society
      the request was filed under. */
  function DebitedSociety(db: Db, id: Id): (s: Option<Id>)
    requires id in db.redemptions
    ensures s.Some? ==> s.value in db.societies
    ensures s.Some? <==>
              var u := db.redemptions[id].userId;
              u in db.users && db.users[u].societyId.Some? && db.users[u].societyId.value in db.societies
  {
    var u := db.redemptions[id].userId;
    if u in db.users && db.users[u].societyId.Some? && db.users[u].societyId.value in db.societies then
      db.users[u].societyId
    else None
  }

  /** Approving or rejecting a request. "approved" debits the used points of
      the requester's society by the request's value; any other string is
      stored as the status and leaves the ledger alone. The current status is
      not consulted. A payload without a status is caught, but the error
      reply carries the exception object, which cannot be serialized, so it
      is answered 500. */
  function Verify(db: Db, id: Option<Id>, payload: Option<VerifyInput>): (r: Result<Db, Error>)
    ensures payload.None? || id.None? ==> r == Err(BadRequest)
    ensures payload.Some? && id.Some? && payload.value.status.None? ==> r == Err(Internal)
    ensures payload.Some? && id.Some? && payload.value.status.Some? && id.value !in db.redemptions ==>
              r == Err(NotFound)
    ensures r.Ok? <==>
              && payload.Some? && id.Some? && payload.value.status.Some? && id.value in db.redemptions
              && (payload.value.status.value == APPROVED ==> DebitedSociety(db, id.value).Some?)
    ensures r.Ok? ==>
              && r.value.redemptions.Keys == db.redemptions.Keys
              && r.value.societies.Keys == db.societies.Keys
              && r.value == db.(redemptions := r.value.redemptions, societies := r.value.societies)
              && r.value.redemptions[id.value] == db.redemptions[id.value].(status := payload.value.status.value)
              && (forall j :: j in db.redemptions && j != id.value ==> r.value.redemptions[j] == db.redemptions[j])
    ensures r.Ok? && payload.value.status.value != APPROVED ==> r.value.societies == db.societies
    ensures r.Ok? && payload.value.status.value == APPROVED ==>
              var s := DebitedSociety(db, id.value).value;
              && r.value.societies[s] == CreditUsed(db.societies[s], db.redemptions[id.value].value)
              && (forall t :: t in db.societies && t != s ==> r.value.societies[t] == db.societies[t])
  {
    if payload.None? then Err(BadRequest)
    else if id.None? then Err(BadRequest)
    else if payload.value.status.None? then Err(Internal)
    else if id.value !in db.redemptions then Err(NotFound)
    else
      var status := payload.value.status.value;
      var q := db.redemptions[id.value];
      if status == APPROVED then
        match DebitedSociety(db, id.value)
        case None => Err(Internal)
        case Some(s) =>
          Ok(db.(societies := db.societies[s := CreditUsed(db.societies[s], q.value)],
                 redemptions := db.redemptions[id.value := q.(status := status)]))
      else
        Ok(db.(redemptions := db.redemptions[id.value := q.(status := status)]))
  }

  /** The pending-only lookup. A society president only sees the requests of
      their own society; a request that is no longer "pending" is refused. */
  function GetRedemptionRequest(db: Db, caller: Id, id: Id): (r: Result<RedemptionRequest, Error>)
    requires caller in db.users
    ensures r.Ok? ==> id in db.redemptions && r.value == db.redemptions[id] && r.value.status == PENDING
    ensures r.Ok? && "society president" in RoleNamesOf(db, db.users[caller]) ==>
              r.value.societyId == db.users[caller].societyId
    ensures "society president" !in RoleNamesOf(db, db.users[caller]) ==>
              && (id !in db.redemptions ==> r == Err(NotFound))
              && (id in db.redemptions && db.redemptions[id].status != PENDING ==> r == Err(Forbidden))
              && (r.Ok? <==> id in db.redemptions && db.redemptions[id].status == PENDING)
    ensures "society president" in RoleNamesOf(db, db.users[caller]) ==>
              var s := db.users[caller].societyId;
              && (s.None? || s.value !in db.societies ==> r == Err(Internal))
              && (s.Some? && s.value in db.societies ==>
                    && (r.Ok? <==> id in db.redemptions && db.redemptions[id].societyId == s
                                   && db.redemptions[id].status == PENDING)
                    && (!(id in db.redemptions && db.redemptions[id].societyId == s) ==> r == Err(NotFound)))
  {
    var found :=
      if "society president" in RoleNamesOf(db, db.users[caller]) then
        var s := db.users[caller].societyId;
        if s.None? || s.value !in db.societies then Err(Internal)
        else if id in db.redemptions && db.redemptions[id].societyId == s then Ok(db.redemptions[id])
        else Err(NotFound)
      else if id in db.redemptions then Ok(db.redemptions[id])
      else Err(NotFound);
    match found
    case Err(e) => Err(e)
    case Ok(q) => if q.status != PENDING then Err(Forbidden) else Ok(q)
  }

  /** Verification routed through the pending-only lookup first. */
  function GuardedVerify(db: Db, caller: Id, id: Id, payload: Option<VerifyInput>): (r: Result<Db, Error>)
    requires caller in db.users
    ensures r.Ok? ==> id in db.redemptions && db.redemptions[id].status == PENDING
    ensures GetRedemptionRequest(db, caller, id).Ok? ==> r == Verify(db, Some(id), payload)
    ensures GetRedemptionRequest(db, caller, id).Err? ==>
              r == Err(GetRedemptionRequest(db, caller, id).error)
  {
    match GetRedemptionRequest(db, caller, id)
    case Err(e) => Err(e)
    case Ok(_) => Verify(db, Some(id), payload)
  }

  /** Creation performs no balance check: a request worth more than the
      society has left is accepted and stored. */
  lemma {:induction false} CreationIgnoresBalance(db: Db, caller: Id, input: CreateInput, newId: Id)
    requires caller in db.users && newId !in db.redemptions
    requires Given(input.reason) && Given(input.center) && input.value.Some?
    requires db.users[caller].societyId.Some? && db.users[caller].societyId.value in db.societies
    requires CenterNamed(db, input.center).Some?
    requires input.value.value > Remaining(db.societies[db.users[caller].societyId.value]) >= 0
    ensures Create(db, caller, Some(input), newId).Ok?
    ensures newId in Create(db, caller, Some(input), newId).value.redemptions
    ensures Create(db, caller, Some(input), newId).value.redemptions[newId].value
              > Remaining(db.societies[db.users[caller].societyId.value])
  {
    assert GivenInt(input.value);
  }

  /** Editing only the supplied fields is idempotent: a second identical
      edit changes nothing more. */
  lemma EditIdempotent(db: Db, id: Option<Id>, payload: Option<EditInput>)
    requires Edit(db, id, payload).Ok?
    ensures Edit(Edit(db, id, payload).value, id, payload) == Edit(db, id, payload)
  {
    var once := Edit(db, id, payload).value;
    var twice := Edit(once, id, payload).value;
    assert twice.redemptions[id.value] == once.redemptions[id.value];
    assert twice.redemptions == once.redemptions;
  }

  /** An edit that supplies no truthy field leaves the store as it was. */
  lemma EditNothingIsIdentity(db: Db, id: Id, payload: EditInput)
    requires id in db.redemptions
    requires !Given(payload.name) && !GivenInt(payload.value) && !Given(payload.description)
    ensures Edit(db, Some(id), Some(payload)) == Ok(db)
  {
    var after := Edit(db, Some(id), Some(payload)).value;
    assert after.redemptions[id] == db.redemptions[id];
    assert after.redemptions == db.redemptions;
  }

  /** Neither edit nor delete looks at the status: an approved request can
      still be edited and deleted. */
  lemma DecidedRequestStillChangeable(db: Db, id: Id, payload: EditInput)
    requires id in db.redemptions && db.redemptions[id].status == APPROVED
    ensures Edit(db, Some(id), Some(payload)).Ok?
    ensures Delete(db, Some(id)).Ok?
  {
  }

  /** An approval debits the requester's society by exactly the request's
      value and leaves its earned points alone. */
  lemma ApprovalDebitsValue(db: Db, id: Id)
    requires id in db.redemptions && DebitedSociety(db, id).Some?
    ensures var s := DebitedSociety(db, id).value;
            var r := Verify(db, Some(id), Some(VerifyInput(Some(APPROVED))));
            && r.Ok?
            && r.value.societies[s].usedPoints == db.societies[s].usedPoints + db.redemptions[id].value
            && r.value.societies[s].totalPoints == db.societies[s].totalPoints
            && Remaining(r.value.societies[s]) == Remaining(db.societies[s]) - db.redemptions[id].value
  {
  }

  /** Verification has no pending guard: approving the same request twice
      debits its value twice. */
  lemma {:induction false} ApproveTwiceDebitsTwice(db: Db, id: Id)
    requires id in db.redemptions && DebitedSociety(db, id).Some?
    ensures var s := DebitedSociety(db, id).value;
            var approve := Some(VerifyInput(Some(APPROVED)));
            var first := Verify(db, Some(id), approve);
            && first.Ok?
            && Verify(first.value, Some(id), approve).Ok?
            && Verify(first.value, Some(id), approve).value.societies[s].usedPoints
                 == db.societies[s].usedPoints + 2 * db.redemptions[id].value
  {
    var s := DebitedSociety(db, id).value;
    var approve := Some(VerifyInput(Some(APPROVED)));
    var first := Verify(db, Some(id), approve).value;
    assert first.redemptions[id].userId == db.redemptions[id].userId;
    assert first.users == db.users;
    assert DebitedSociety(first, id) == Some(s);
  }

  /** Verification has no guard against reversing a decision either: an
      approved request can be marked "rejected", and the debit stays. */
  lemma RejectAfterApprovalKeepsDebit(db: Db, id: Id)
    requires id in db.redemptions && db.redemptions[id].status == APPROVED
    ensures Verify(db, Some(id), Some(VerifyInput(Some(REJECTED)))).Ok?
    ensures Verify(db, Some(id), Some(VerifyInput(Some(REJECTED)))).value.redemptions[id].status == REJECTED
    ensures Verify(db, Some(id), Some(VerifyInput(Some(REJECTED)))).value.societies == db.societies
  {
  }

  /** Under the pending-only lookup the debit happens at most once: after
      an approval the request is no longer pending, so every further guarded
      verification is refused and the ledger stays as the first approval
      left it. */
  lemma {:induction false} GuardedApprovalOnce(db: Db, caller: Id, id: Id, payload: Option<VerifyInput>)
    requires caller in db.users
    requires GuardedVerify(db, caller, id, Some(VerifyInput(Some(APPROVED)))).Ok?
    ensures var after := GuardedVerify(db, caller, id, Some(VerifyInput(Some(APPROVED)))).value;
            && caller in after.users
            && GuardedVerify(after, caller, id, payload).Err?
            && GetRedemptionRequest(after, caller, id).Err?
  {
    var after := GuardedVerify(db, caller, id, Some(VerifyInput(Some(APPROVED)))).value;
    assert after.redemptions[id].status == APPROVED;
    assert after.users == db.users && after.roles == db.roles;
  }

  /** Under the pending-only lookup a decided request cannot be reversed:
      rejecting an approved request fails and changes nothing. */
  lemma GuardRefusesDecided(db: Db, caller: Id, id: Id, payload: Option<VerifyInput>)
    requires caller in db.users
    requires id in db.redemptions && db.redemptions[id].status != PENDING
    ensures GuardedVerify(db, caller, id, payload).Err?
  {
  }
}

=== FILE: roles.dfy ===
/**
 Roles and society executives: creating, renaming and deleting roles, and
 handing an executive role from the member who holds it in a society to
 another member of that society.
 */
module Roles {
  import opened Outcomes
  import opened Keys
  import opened Entities
  import opened Text
  import opened Schemas

  /** The role named exactly `name`, as `.first()` finds it. */
  function RoleNamed(roles: map<Id, Role>, name: string): (r: Option<Id>)
    ensures r.Some? ==> r.value in roles && roles[r.value].name == name
    ensures r.None? <==> forall k :: k in roles ==> roles[k].name != name
    ensures r.Some? ==> forall k :: k in roles && roles[k].name == name ==> r.value <= k
  {
    var named := set k | k in roles && roles[k].name == name;
    assert forall k :: k in roles && roles[k].name == name ==> k in named;
    First(named)
  }

  /** The society named exactly `name`, as `.first()` finds it. */
  function SocietyNamed(db: Db, name: string): (r: Option<Id>)
    ensures r.Some? ==> r.value in db.societies && db.societies[r.value].name == name
    ensures r.None? <==> forall k :: k in db.societies ==> db.societies[k].name != name
  {
    var named := set k | k in db.societies && db.societies[k].name == name;
    assert forall k :: k in db.societies && db.societies[k].name == name ==> k in named;
    First(named)
  }

  /** A role payload; `name` is `None` when the key is absent. */
  datatype RoleInput = RoleInput(name: Option<string>)

  /** Creating a role: the name is required and must be new ignoring case.
      `payload` is `None` when the request carries no data. */
  function CreateRole(db: Db, payload: Option<RoleInput>, newId: Id): (r: Result<Db, Error>)
    requires newId !in db.roles
    ensures payload.None? || payload.value.name.None? ==> r == Err(BadRequest)
    ensures payload.Some? && payload.value.name.Some? ==>
              (r == Err(Conflict) <==>
                 exists k :: k in db.roles && SameIgnoringCase(db.roles[k].name, payload.value.name.value))
    ensures r.Ok? <==>
              && payload.Some? && payload.value.name.Some?
              && forall k :: k in db.roles ==> !SameIgnoringCase(db.roles[k].name, payload.value.name.value)
    ensures r.Ok? ==> r.value == db.(roles := db.roles[newId := Role(payload.value.name.value)])
  {
    if payload.None? || payload.value.name.None? then Err(BadRequest)
    else
      match VerifyRole(db.roles, payload.value.name.value)
      case Fail(e) => Err(e)
      case Pass => Ok(db.(roles := db.roles[newId := Role(payload.value.name.value)]))
  }

  /** Renaming role `id`. `name` is `None` when the payload has no name key.
      An identical name is answered without change; any other name is taken
      as it is, without the uniqueness check of creation. */
  function EditRole(db: Db, id: Id, name: Option<string>): (r: Result<Db, Error>)
    ensures id !in db.roles ==> r == Err(NotFound)
    ensures id in db.roles && name.None? ==> r == Err(BadRequest)
    ensures r.Ok? <==> id in db.roles && name.Some?
    ensures r.Ok? && name.value == db.roles[id].name ==> r.value == db
    ensures r.Ok? ==>
              && r.value == db.(roles := r.value.roles)
              && r.value.roles.Keys == db.roles.Keys
              && r.value.roles[id].name == name.value
              && (forall k :: k in db.roles && k != id ==> r.value.roles[k] == db.roles[k])
  {
    if id !in db.roles then Err(NotFound)
    else if name.None? then Err(BadRequest)
    else if name.value == db.roles[id].name then Ok(db)
    else Ok(db.(roles := db.roles[id := Role(name.value)]))
  }

  /** The role edit route: it needs a payload and a role identifier before
      renaming. */
  function RolePut(db: Db, id: Option<Id>, payload: Option<RoleInput>): (r: Result<Db, Error>)
    ensures payload.None? || id.None? ==> r == Err(BadRequest)
    ensures payload.Some? && id.Some? ==> r == EditRole(db, id.value, payload.value.name)
  {
    if payload.None? || id.None? then Err(BadRequest)
    else EditRole(db, id.value, payload.value.name)
  }

  /** Deleting a role; the association rows go with it, so no user holds it
      afterwards. */
  function DeleteRole(db: Db, id: Option<Id>): (r: Result<Db, Error>)
    ensures id.None? ==> r == Err(BadRequest)
    ensures id.Some? && id.value !in db.roles ==> r == Err(NotFound)
    ensures r.Ok? <==> id.Some? && id.value in db.roles
    ensures r.Ok? ==>
              && r.value == db.(roles := db.roles - {id.value}, users := r.value.users)
              && r.value.users.Keys == db.users.Keys
              && forall u :: u in db.users ==>
                   r.value.users[u] == db.users[u].(roles := db.users[u].roles - {id.value})
  {
    if id.None? then Err(BadRequest)
    else if id.value !in db.roles then Err(NotFound)
    else
      var users := map u | u in db.users :: db.users[u].(roles := db.users[u].roles - {id.value});
      Ok(db.(roles := db.roles - {id.value}, users := users))
  }

  /** Renaming skips the uniqueness rule: a role can be renamed to the name
      of another role, which creation would refuse. */
  lemma RenameAllowsDuplicate(db: Db, id: Id, other: Id)
    requires id in db.roles && other in db.roles && id != other
    requires db.roles[id].name != db.roles[other].name
    ensures EditRole(db, id, Some(db.roles[other].name)).Ok?
    ensures var after := EditRole(db, id, Some(db.roles[other].name)).value;
            after.roles[id].name == after.roles[other].name
  {
  }

  /** An executive reassignment payload; absent keys are `None`. */
  datatype ReassignInput = ReassignInput(role: Option<string>, society: Option<string>, name: Option<string>)

  /** The members of society `s` who hold role `role`. */
  function Holders(users: map<Id, User>, role: Id, s: Id): (h: set<Id>)
    ensures forall u :: u in h <==> u in users && role in users[u].roles && users[u].societyId == Some(s)
  {
    set u | u in users && role in users[u].roles && users[u].societyId == Some(s)
  }

  /** Some member of society `s` has the name `name`. */
  predicate MemberNamed(users: map<Id, User>, name: string, s: Id)
  {
    exists u :: u in users && users[u].name == name && users[u].societyId == Some(s)
  }

  /** Who gives up and who receives `role` in society `society`. */
  datatype Plan = Plan(role: Id, society: Id, outgoing: Id, incoming: Id)

  /** The lookups of the reassignment handler, in the handler's order: the
      society and role by exact name (an unknown role is reported before an
      unknown society), the one current holder (more than one makes the
      handler fail), the new executive by name among the society's members,
      and only then the check that a current holder exists. */
  function ReassignPlan(db: Db, payload: Option<ReassignInput>): (r: Result<Plan, Error>)
    ensures payload.None? ==> r == Err(BadRequest)
    ensures payload.Some? && !(Given(payload.value.role) && Given(payload.value.society) && Given(payload.value.name)) ==>
              r == Err(BadRequest)
    ensures payload.Some? && Given(payload.value.role) && Given(payload.value.society) && Given(payload.value.name) ==>
              && (RoleNamed(db.roles, payload.value.role.value).None? ==> r == Err(NotFound))
              && (SocietyNamed(db, payload.value.society.value).None? ==> r == Err(NotFound))
    ensures payload.Some? && Given(payload.value.role) && Given(payload.value.society) && Given(payload.value.name)
            && RoleNamed(db.roles, payload.value.role.value).Some?
            && SocietyNamed(db, payload.value.society.value).Some? ==>
              var society := SocietyNamed(db, payload.value.society.value).value;
              var holders := Holders(db.users, RoleNamed(db.roles, payload.value.role.value).value, society);
              var member := MemberNamed(db.users, payload.value.name.value, society);
              && (|holders| > 1 ==> r == Err(Internal))
              && (|holders| <= 1 && !member ==> r == Err(NotFound))
              && (|holders| <= 1 && member && holders == {} ==> r == Err(NotFound))
              && (r.Ok? <==> |holders| == 1 && member)
    ensures r.Ok? ==>
              && payload.Some?
              && Given(payload.value.role) && Given(payload.value.society) && Given(payload.value.name)
              && Some(r.value.role) == RoleNamed(db.roles, payload.value.role.value)
              && Some(r.value.society) == SocietyNamed(db, payload.value.society.value)
              && Holders(db.users, r.value.role, r.value.society) == {r.value.outgoing}
              && r.value.incoming in db.users
              && db.users[r.value.incoming].name == payload.value.name.value
              && db.users[r.value.incoming].societyId == Some(r.value.society)
  {
    if payload.None? then Err(BadRequest)
    else
      var input := payload.value;
      if !(Given(input.role) && Given(input.society) && Given(input.name)) then Err(BadRequest)
      else
        var society := SocietyNamed(db, input.society.value);
        var role := RoleNamed(db.roles, input.role.value);
        if role.None? then Err(NotFound)
        else if society.None? then Err(NotFound)
        else
          var holders := Holders(db.users, role.value, society.value);
          if |holders| > 1 then Err(Internal)
          else
            var named := set u | u in db.users && db.users[u].name == input.name.value
                                 && db.users[u].societyId == society;
            assert forall u :: (u in db.users && db.users[u].name == input.name.value
                                && db.users[u].societyId == society) ==> u in named;
            var incoming := First(named);
            if incoming.None? then Err(NotFound)
            else if holders == {} then Err(NotFound)
            else
              var outgoing := Least(holders);
              SingletonOf(holders, outgoing);
              Ok(Plan(role.value, society.value, outgoing, incoming.value))
  }

  /** A set of at most one element that holds `x` is `{x}`. */
  lemma SingletonOf(s: set<Id>, x: Id)
    requires |s| <= 1 && x in s
    ensures s == {x}
  {
    if y :| y in s && y != x {
      assert {x, y} <= s;
      assert |{x, y}| == 2;
      SubsetCard({x, y}, s);
    }
  }

  lemma {:induction false} SubsetCard(a: set<Id>, b: set<Id>)
    requires a <= b
    ensures |a| <= |b|
  {
    if a != {} {
      var x :| x in a;
      SubsetCard(a - {x}, b - {x});
    }
  }

  /** The role moves: the outgoing holder loses it, then the incoming member
      gains it, so a member who is both keeps it. */
  function Appoint(db: Db, p: Plan): (after: Db)
    requires p.outgoing in db.users && p.incoming in db.users
    ensures after == db.(users := after.users)
    ensures after.users.Keys == db.users.Keys
    ensures after.users[p.incoming] == db.users[p.incoming].(roles := db.users[p.incoming].roles + {p.role})
    ensures p.outgoing != p.incoming ==>
              after.users[p.outgoing] == db.users[p.outgoing].(roles := db.users[p.outgoing].roles - {p.role})
    ensures forall u :: u in db.users && u != p.outgoing && u != p.incoming ==> after.users[u] == db.users[u]
  {
    var out := db.users[p.outgoing];
    var users := db.users[p.outgoing := out.(roles := out.roles - {p.role})];
    var inc := users[p.incoming];
    db.(users := users[p.incoming := inc.(roles := inc.roles + {p.role})])
  }

  /** Handing a society executive role to another member. */
  function Reassign(db: Db, payload: Option<ReassignInput>): (r: Result<Db, Error>)
    ensures ReassignPlan(db, payload).Err? ==> r == Err(ReassignPlan(db, payload).error)
    ensures r.Ok? <==> ReassignPlan(db, payload).Ok?
    ensures r.Ok? ==>
              var p := ReassignPlan(db, payload).value;
              && r.value == db.(users := r.value.users)
              && r.value.users.Keys == db.users.Keys
              && p.role in r.value.users[p.incoming].roles
              && (p.outgoing != p.incoming ==> p.role !in r.value.users[p.outgoing].roles)
              && (forall u :: u in db.users && u != p.outgoing && u != p.incoming ==>
                    r.value.users[u] == db.users[u])
  {
    match ReassignPlan(db, payload)
    case Err(e) => Err(e)
    case Ok(p) => Ok(Appoint(db, p))
  }

  /** A reassignment keeps exactly one holder of the role in the society:
      the member appointed. */
  lemma ReassignKeepsOneHolder(db: Db, payload: Option<ReassignInput>)
    requires Reassign(db, payload).Ok?
    ensures var p := ReassignPlan(db, payload).value;
            Holders(Reassign(db, payload).value.users, p.role, p.society) == {p.incoming}
  {
    var p := ReassignPlan(db, payload).value;
    var after := Reassign(db, payload).value;
    assert after == Appoint(db, p);
  }
}

=== FILE: schemas.dfy ===
/**
 Input validation rules of the marshmallow schemas: the logged-activity
 payload, the activity payload, and the uniqueness of role and activity-type
 names.
 */
module Schemas {
  import opened Outcomes
  import opened Keys
  import opened Text
  import opened Entities

  /** A logged-activity payload after loading; absent keys are `None`. */
  datatype LogInput = LogInput(
    name: Option<string>,
    description: Option<string>,
    photo: Option<string>,
    activityId: Option<Id>,
    typeId: Option<Id>,
    date: Option<int>,
    participants: Option<int>)

  datatype LogRule = EitherIdOnly | DateAndDescription | ParticipantCount

  /** Identifiers of the activity types that support several participants. */
  function MultiParticipantTypes(types: map<Id, ActivityType>): set<Id>
  {
    set t | t in types && types[t].multipleParticipants
  }

  /** The schema-level check of a logged-activity payload: exactly one of
      the two identifiers, a date and description with a type identifier,
      and a non-zero participant count for a multi-participant type. */
  function ValidateLogInput(types: map<Id, ActivityType>, input: LogInput): (r: Outcome<LogRule>)
    ensures input.activityId.Some? == input.typeId.Some? ==> r == Fail(EitherIdOnly)
    ensures (input.activityId.Some? != input.typeId.Some? && input.typeId.Some?
             && !(input.date.Some? && Given(input.description))) ==> r == Fail(DateAndDescription)
    ensures r.Pass? <==>
              && input.activityId.Some? != input.typeId.Some?
              && (input.typeId.Some? ==> input.date.Some? && Given(input.description))
              && ((input.typeId.Some? && input.typeId.value in types
                   && types[input.typeId.value].multipleParticipants) ==> GivenInt(input.participants))
  {
    if (input.typeId.Some? && input.activityId.Some?) || (input.typeId.None? && input.activityId.None?) then
      Fail(EitherIdOnly)
    else if input.typeId.Some? && !(input.date.Some? && Given(input.description)) then
      Fail(DateAndDescription)
    else if input.typeId.Some? && input.typeId.value in MultiParticipantTypes(types)
            && !GivenInt(input.participants) then
      Fail(ParticipantCount)
    else
      Pass
  }

  /** An activity payload after loading; `description` is `None` when the
      required key is absent. */
  datatype ActivityInput = ActivityInput(name: string, description: Option<string>, typeId: Id, date: int)

  /** Activity-type names under which no activity may be created, and
      words no activity name may contain. */
  const UNSUPPORTED: seq<string> := ["Blog", "App", "Open Source"]

  predicate NamesUnsupported(name: string)
  {
    exists i :: 0 <= i < |UNSUPPORTED| && Contains(name, UNSUPPORTED[i])
  }

  function ActivityNames(activities: map<Id, Activity>): set<string>
  {
    set a | a in activities :: activities[a].name
  }

  /** The activity date may not lie before today; today is accepted. */
  function ValidateActivityDate(date: int, today: int): (r: Outcome<Error>)
    ensures r.Pass? <==> today <= date
    ensures r.Fail? ==> r.error == BadRequest
  {
    if date < today then Fail(BadRequest) else Pass
  }

  /** The post-load check of an activity: its type exists and is not one of
      the unsupported types (404), its name is new ignoring case (409) and
      contains none of the unsupported words (400). */
  function VerifyActivity(types: map<Id, ActivityType>, activities: map<Id, Activity>,
                          input: ActivityInput): (r: Outcome<Error>)
    ensures r == Fail(NotFound) <==>
              input.typeId !in types || types[input.typeId].name in UNSUPPORTED
    ensures r == Fail(Conflict) <==>
              input.typeId in types && types[input.typeId].name !in UNSUPPORTED
              && TakenIgnoringCase(ActivityNames(activities), input.name)
    ensures r.Pass? <==>
              && input.typeId in types
              && types[input.typeId].name !in UNSUPPORTED
              && !TakenIgnoringCase(ActivityNames(activities), input.name)
              && !NamesUnsupported(input.name)
  {
    if input.typeId !in types || types[input.typeId].name in UNSUPPORTED then
      Fail(NotFound)
    else if TakenIgnoringCase(ActivityNames(activities), input.name) then
      Fail(Conflict)
    else if NamesUnsupported(input.name) then
      Fail(BadRequest)
    else
      Pass
  }

  /** Loading an activity payload: the field rules (a description is
      required, the date validator) run first and the post-load check only
      when they all passed. */
  function LoadActivity(types: map<Id, ActivityType>, activities: map<Id, Activity>,
                        input: ActivityInput, today: int): (r: Outcome<Error>)
    ensures input.description.None? ==> r == Fail(BadRequest)
    ensures input.date < today ==> r == Fail(BadRequest)
    ensures r.Pass? <==>
              input.description.Some? && today <= input.date && VerifyActivity(types, activities, input).Pass?
  {
    if input.description.None? then Fail(BadRequest)
    else
      match ValidateActivityDate(input.date, today)
      case Fail(e) => Fail(e)
      case Pass => VerifyActivity(types, activities, input)
  }

  /** An activity named after an unsupported word is refused even when its
      type and name are otherwise acceptable. */
  lemma UnsupportedWordRefused(types: map<Id, ActivityType>, activities: map<Id, Activity>,
                               input: ActivityInput)
    requires input.typeId in types && types[input.typeId].name !in UNSUPPORTED
    requires !TakenIgnoringCase(ActivityNames(activities), input.name)
    requires Contains(input.name, "Blog")
    ensures VerifyActivity(types, activities, input) == Fail(BadRequest)
  {
    assert Contains(input.name, UNSUPPORTED[0]);
  }

  function RoleNames(roles: map<Id, Role>): set<string>
  {
    set r | r in roles :: roles[r].name
  }

  function TypeNames(types: map<Id, ActivityType>): set<string>
  {
    set t | t in types :: types[t].name
  }

  /** A new role name must differ, ignoring case, from every stored one. */
  function VerifyRole(roles: map<Id, Role>, name: string): (r: Outcome<Error>)
    ensures r.Fail? <==> exists k :: k in roles && SameIgnoringCase(roles[k].name, name)
    ensures r.Fail? ==> r.error == Conflict
  {
    if TakenIgnoringCase(RoleNames(roles), name) then Fail(Conflict) else Pass
  }

  /** A new activity-type name must differ, ignoring case, from every stored one. */
  function VerifyActivityType(types: map<Id, ActivityType>, name: string): (r: Outcome<Error>)
    ensures r.Fail? <==> exists k :: k in types && SameIgnoringCase(types[k].name, name)
    ensures r.Fail? ==> r.error == Conflict
  {
    if TakenIgnoringCase(TypeNames(types), name) then Fail(Conflict) else Pass
  }

  /** A role name that differs from a stored one only in letter case is
      refused as a duplicate. */
  lemma RoleNameCaseDuplicate(roles: map<Id, Role>, k: Id, name: string)
    requires k in roles
    requires |name| == |roles[k].name|
    requires forall i :: 0 <= i < |name| ==> Lower(name[i]) == Lower(roles[k].name[i])
    ensures VerifyRole(roles, name) == Fail(Conflict)
  {
    SameIgnoringCasePointwise(roles[k].name, name);
  }
}

=== FILE: societies.dfy ===
/**
 Societies and cohorts: creating, editing and deleting a society, and
 moving a cohort into a society. None of these handlers writes the points
 counters.
 */
module Societies {
  import opened Outcomes
  import opened Keys
  import opened Ledger
  import opened Entities

  /** A society payload; a key that is absent is `None`. */
  datatype SocietyInput = SocietyInput(
    name: Option<string>,
    colorScheme: Option<string>,
    logo: Option<string>,
    photo: Option<string>)

  predicate HasAllKeys(input: SocietyInput)
  {
    input.name.Some? && input.colorScheme.Some? && input.logo.Some? && input.photo.Some?
  }

  /** Creating a society: all four keys are required; the counters start at
      zero. `payload` is `None` when the request carries no data. */
  function CreateSociety(db: Db, payload: Option<SocietyInput>, newId: Id): (r: Result<Db, Error>)
    requires newId !in db.societies
    ensures r.Ok? <==> payload.Some? && HasAllKeys(payload.value)
    ensures r.Err? ==> r.error == BadRequest
    ensures r.Ok? ==>
              && newId in r.value.societies
              && r.value == db.(societies := db.societies[newId := r.value.societies[newId]])
              && var s := r.value.societies[newId];
                 var input := payload.value;
                 && s.totalPoints == 0 && s.usedPoints == 0
                 && s.name == input.name.value && s.colorScheme == input.colorScheme.value
                 && s.logo == input.logo && s.photo == input.photo
  {
    if payload.None? || !HasAllKeys(payload.value) then Err(BadRequest)
    else
      var input := payload.value;
      Ok(db.(societies := db.societies[newId := NewSociety(input.name.value, input.colorScheme.value,
                                                            input.logo, input.photo)]))
  }

  /** `value or None` on an optional string. */
  function OrNone(s: Option<string>): (r: Option<string>)
    ensures r.Some? <==> Given(s)
    ensures r.Some? ==> r == s
  {
    if Given(s) then s else None
  }

  /** The society after the edit handler's writes, as the handler makes
      them: a truthy name is written; a truthy colour scheme goes to the
      transient `color` attribute, not to the column; a truthy photo makes
      the logo input the new photo, and a truthy logo makes the photo input
      the new logo. */
  function Edited(s: Society, input: SocietyInput): (s': Society)
    requires HasAllKeys(input)
    ensures s'.name == (if Given(input.name) then input.name.value else s.name)
    ensures s'.color == (if Given(input.colorScheme) then input.colorScheme else s.color)
    ensures s'.photo == (if Given(input.photo) then OrNone(input.logo) else s.photo)
    ensures s'.logo == (if Given(input.logo) then OrNone(input.photo) else s.logo)
    ensures s'.colorScheme == s.colorScheme
    ensures s'.totalPoints == s.totalPoints && s'.usedPoints == s.usedPoints
  {
    var name := OrNone(input.name);
    var colorScheme := OrNone(input.colorScheme);
    var logo := OrNone(input.logo);
    var photo := OrNone(input.photo);
    var s1 := if name.Some? then s.(name := name.value) else s;
    var s2 := if colorScheme.Some? then s1.(color := colorScheme) else s1;
    var s3 := if photo.Some? then s2.(photo := logo) else s2;
    if logo.Some? then s3.(logo := photo) else s3
  }

  /** Editing a society. A missing key is an uncaught `KeyError`. */
  function EditSociety(db: Db, id: Option<Id>, payload: Option<SocietyInput>): (r: Result<Db, Error>)
    ensures payload.None? ==> r == Err(BadRequest)
    ensures payload.Some? && id.None? ==> r == Err(BadRequest)
    ensures payload.Some? && id.Some? && id.value !in db.societies ==> r == Err(NotFound)
    ensures payload.Some? && id.Some? && id.value in db.societies && !HasAllKeys(payload.value) ==>
              r == Err(Internal)
    ensures r.Ok? <==> payload.Some? && id.Some? && id.value in db.societies && HasAllKeys(payload.value)
    ensures r.Ok? ==>
              && r.value == db.(societies := db.societies[id.value := Edited(db.societies[id.value], payload.value)])
              && r.value.societies[id.value].totalPoints == db.societies[id.value].totalPoints
              && r.value.societies[id.value].usedPoints == db.societies[id.value].usedPoints
  {
    if payload.None? || id.None? then Err(BadRequest)
    else if id.value !in db.societies then Err(NotFound)
    else if !HasAllKeys(payload.value) then Err(Internal)
    else Ok(db.(societies := db.societies[id.value := Edited(db.societies[id.value], payload.value)]))
  }

  /** The edit writes the two image inputs crosswise: sending a new logo
      and a new photo swaps them into the other field. */
  lemma EditSwapsImages(s: Society, input: SocietyInput)
    requires HasAllKeys(input) && Given(input.logo) && Given(input.photo)
    ensures Edited(s, input).logo == input.photo
    ensures Edited(s, input).photo == input.logo
  {
  }

  /** The edit never writes the colour-scheme column: sending a new colour
      scheme leaves it as it was. */
  lemma EditKeepsColorScheme(s: Society, input: SocietyInput)
    requires HasAllKeys(input) && Given(input.colorScheme) && input.colorScheme.value != s.colorScheme
    ensures Edited(s, input).colorScheme != input.colorScheme.value
    ensures Edited(s, input).color == input.colorScheme
  {
  }

  /** Deleting a society. */
  function DeleteSociety(db: Db, id: Option<Id>): (r: Result<Db, Error>)
    ensures id.None? ==> r == Err(BadRequest)
    ensures id.Some? && id.value !in db.societies ==> r == Err(NotFound)
    ensures r.Ok? <==> id.Some? && id.value in db.societies
    ensures r.Ok? ==> r.value == db.(societies := db.societies - {id.value}) && id.value !in r.value.societies
  {
    if id.None? then Err(BadRequest)
    else if id.value !in db.societies then Err(NotFound)
    else Ok(db.(societies := db.societies - {id.value}))
  }

  /** A cohort assignment payload; a key that is absent is `None`. */
  datatype CohortInput = CohortInput(societyId: Option<Id>, cohortId: Option<Id>)

  /** Moving a cohort into a society. */
  function AssignCohort(db: Db, payload: Option<CohortInput>): (r: Result<Db, Error>)
    ensures payload.None? || payload.value.societyId.None? || payload.value.cohortId.None? ==>
              r == Err(BadRequest)
    ensures payload.Some? && payload.value.societyId.Some? && payload.value.cohortId.Some? ==>
              var s := payload.value.societyId.value;
              var c := payload.value.cohortId.value;
              && (s !in db.societies || c !in db.cohorts ==> r == Err(BadRequest))
              && (s in db.societies && c in db.cohorts && db.cohorts[c].societyId == Some(s) ==>
                    r == Err(Conflict))
              && (r.Ok? <==> s in db.societies && c in db.cohorts && db.cohorts[c].societyId != Some(s))
    ensures r.Ok? ==>
              var c := payload.value.cohortId.value;
              && r.value == db.(cohorts := db.cohorts[c := db.cohorts[c].(societyId := payload.value.societyId)])
              && r.value.cohorts[c].name == db.cohorts[c].name
  {
    if payload.None? || payload.value.societyId.None? || payload.value.cohortId.None? then Err(BadRequest)
    else
      var s := payload.value.societyId.value;
      var c := payload.value.cohortId.value;
      if s !in db.societies then Err(BadRequest)
      else if c !in db.cohorts then Err(BadRequest)
      else if db.cohorts[c].societyId == Some(s) then Err(Conflict)
      else Ok(db.(cohorts := db.cohorts[c := db.cohorts[c].(societyId := Some(s))]))
  }

  /** A successful assignment cannot be repeated: the same call then finds
      the cohort already in the society. */
  lemma AssignCohortOnce(db: Db, payload: Option<CohortInput>)
    requires AssignCohort(db, payload).Ok?
    ensures AssignCohort(AssignCohort(db, payload).value, payload) == Err(Conflict)
  {
  }
}

=== FILE: text.dfy ===
/**
 String comparisons the validation rules rely on: the case-insensitive
 match the SQL `ilike` filters perform on a pattern without wildcards, and
 substring containment (Python's `in` on strings).
 */
module Text {

  /** ASCII lower-casing of one character. */
  function Lower(c: char): char
  {
    if 'A' <= c <= 'Z' then (c as int + 32) as char else c
  }

  function LowerAll(s: string): (r: string)
    ensures |r| == |s|
    ensures forall i :: 0 <= i < |s| ==> r[i] == Lower(s[i])
  {
    seq(|s|, i requires 0 <= i < |s| => Lower(s[i]))
  }

  /** `a ilike b` when `b` holds no wildcard. */
  predicate SameIgnoringCase(a: string, b: string)
  {
    LowerAll(a) == LowerAll(b)
  }

  /** Two strings match ignoring case exactly when they have the same length
      and agree position by position after lower-casing. */
  lemma SameIgnoringCasePointwise(a: string, b: string)
    ensures SameIgnoringCase(a, b) <==>
              |a| == |b| && forall i :: 0 <= i < |a| ==> Lower(a[i]) == Lower(b[i])
  {
    if |a| == |b| && forall i :: 0 <= i < |a| ==> Lower(a[i]) == Lower(b[i]) {
      assert forall i :: 0 <= i < |a| ==> LowerAll(a)[i] == LowerAll(b)[i];
    }
  }

  /** Some name in `names` matches `name` ignoring case. */
  predicate TakenIgnoringCase(names: set<string>, name: string)
  {
    exists n :: n in names && SameIgnoringCase(n, name)
  }

  /** `part` occurs in `s` starting at index `i`. */
  predicate OccursAt(s: string, part: string, i: int)
  {
    0 <= i <= |s| - |part| && s[i..i + |part|] == part
  }

  /** `part in s` on Python strings. */
  predicate Contains(s: string, part: string)
  {
    exists i :: 0 <= i <= |s| - |part| && OccursAt(s, part, i)
  }
}

=== FILE: valuation.dfy ===
/**
 Activity valuation: resolving a logged-activity payload to the activity,
 activity type, date and point value it claims.

 Two paths exist. With an activity identifier the date and type come from
 the stored activity; otherwise the payload's type identifier and date are
 used, and a date after today is refused. On both paths a claim more than
 30 days old is refused. The value is the type's value, multiplied by the
 participant count when the type supports several participants.
 */
module Valuation {
  import opened Outcomes
  import opened Keys
  import opened Entities
  import opened Schemas

  /** How far back, in days, points may be claimed. */
  const CLAIM_WINDOW: int := 30

  datatype Parsed = Parsed(activityId: Option<Id>, typeId: Id, date: int, value: int)

  datatype ValuationError =
    | InvalidActivityId       // no activity with the given identifier
    | ParticipantsRequired    // multi-participant activity without count and description
    | InvalidActivityDate     // a date after today on the type path
    | InvalidActivityTypeId   // no activity type with the given identifier
    | TooLate                 // more than CLAIM_WINDOW days ago
    | MissingField            // a key the handler reads without a default is absent

  /** The status each valuation failure is answered with. */
  function Kind(e: ValuationError): Error
  {
    match e
    case InvalidActivityId => Unprocessable
    case ParticipantsRequired => BadRequest
    case InvalidActivityDate => Unprocessable
    case InvalidActivityTypeId => Unprocessable
    case TooLate => Unprocessable
    case MissingField => Internal
  }

  /** The points an activity of type `t` is worth for `participants`. */
  function Points(t: ActivityType, participants: int): int
  {
    if t.multipleParticipants then t.value * participants else t.value
  }

  /** The participant count the value is computed with; an absent count
      only reaches `Points` for a single-participant type, where it is not
      used. */
  function Count(participants: Option<int>): int
  {
    if participants.Some? then participants.value else 0
  }

  /** A multi-participant activity claimed without both a count and a
      description of the participants. */
  predicate NeedsParticipants(t: ActivityType, input: LogInput)
  {
    t.multipleParticipants && !(GivenInt(input.participants) && Given(input.description))
  }

  function Value(types: map<Id, ActivityType>, activities: map<Id, Activity>,
                 input: LogInput, today: int): (r: Result<Parsed, ValuationError>)
    requires ActivitiesTyped(types, activities)
    // activity path
    ensures input.activityId.Some? ==>
              (r == Err(InvalidActivityId) <==> input.activityId.value !in activities)
    ensures input.activityId.Some? && input.activityId.value in activities ==>
              var a := activities[input.activityId.value];
              && (r == Err(TooLate) <==>
                    !NeedsParticipants(types[a.typeId], input) && today - a.date > CLAIM_WINDOW)
              && (r.Ok? <==>
                    !NeedsParticipants(types[a.typeId], input) && today - a.date <= CLAIM_WINDOW)
    ensures input.activityId.Some? && r.Ok? ==>
              && r.value.activityId == input.activityId
              && r.value.date == activities[input.activityId.value].date
              && r.value.typeId == activities[input.activityId.value].typeId
    ensures (input.activityId.Some? && input.activityId.value in activities
             && types[activities[input.activityId.value].typeId].multipleParticipants
             && !(GivenInt(input.participants) && Given(input.description))) ==>
              r == Err(ParticipantsRequired)
    // type path
    ensures input.activityId.None? && r.Ok? ==>
              && r.value.activityId.None?
              && Some(r.value.date) == input.date
              && r.value.date <= today
              && Some(r.value.typeId) == input.typeId
    ensures input.activityId.None? && input.date.Some? && input.date.value > today ==>
              r == Err(InvalidActivityDate)
    ensures input.activityId.None? && input.date.Some? && input.date.value <= today
              && input.typeId.Some? && input.typeId.value !in types ==>
              r == Err(InvalidActivityTypeId)
    ensures input.activityId.None? ==>
              (r == Err(MissingField) <==>
                 || input.date.None?
                 || (input.date.value <= today && input.typeId.None?)
                 || (&& input.date.value <= today && input.typeId.Some? && input.typeId.value in types
                     && today - input.date.value <= CLAIM_WINDOW
                     && types[input.typeId.value].multipleParticipants && input.participants.None?))
    ensures input.activityId.None? ==>
              (r == Err(TooLate) <==>
                 && input.date.Some? && input.date.value <= today
                 && input.typeId.Some? && input.typeId.value in types
                 && today - input.date.value > CLAIM_WINDOW)
    ensures input.activityId.None? ==>
              (r.Ok? <==>
                 && input.date.Some? && input.date.value <= today
                 && input.typeId.Some? && input.typeId.value in types
                 && today - input.date.value <= CLAIM_WINDOW
                 && !(types[input.typeId.value].multipleParticipants && input.participants.None?))
    // both paths
    ensures r.Ok? ==> today - r.value.date <= CLAIM_WINDOW
    ensures r.Ok? ==> r.value.typeId in types
    ensures r.Ok? && !types[r.value.typeId].multipleParticipants ==>
              r.value.value == types[r.value.typeId].value
    ensures r.Ok? && types[r.value.typeId].multipleParticipants ==>
              input.participants.Some?
              && r.value.value == types[r.value.typeId].value * input.participants.value
  {
    if input.activityId.Some? then
      var id := input.activityId.value;
      if id !in activities then Err(InvalidActivityId)
      else
        var activity := activities[id];
        var t := types[activity.typeId];
        if NeedsParticipants(t, input) then
          Err(ParticipantsRequired)
        else if today - activity.date > CLAIM_WINDOW then
          Err(TooLate)
        else
          Ok(Parsed(Some(id), activity.typeId, activity.date, Points(t, Count(input.participants))))
    else if input.date.None? then
      Err(MissingField)
    else if input.date.value > today then
      Err(InvalidActivityDate)
    else if input.typeId.None? then
      Err(MissingField)
    else if input.typeId.value !in types then
      Err(InvalidActivityTypeId)
    else if today - input.date.value > CLAIM_WINDOW then
      Err(TooLate)
    else
      var t := types[input.typeId.value];
      if t.multipleParticipants && input.participants.None? then
        Err(MissingField)
      else
        Ok(Parsed(None, input.typeId.value, input.date.value, Points(t, Count(input.participants))))
  }

  /** Every well-formed claim on the type path inside the window is
      accepted, at the type's points for the claimed count. */
  lemma ValidTypeClaimValued(types: map<Id, ActivityType>, activities: map<Id, Activity>,
                             input: LogInput, today: int, t: Id, d: int)
    requires ActivitiesTyped(types, activities)
    requires input.activityId.None? && input.typeId == Some(t) && t in types && input.date == Some(d)
    requires today - CLAIM_WINDOW <= d <= today
    requires types[t].multipleParticipants ==> input.participants.Some?
    ensures Value(types, activities, input, today) == Ok(Parsed(None, t, d, Points(types[t], Count(input.participants))))
  {
  }

  /** Every claim of a stored activity inside the window is accepted, at its
      type's points, once a multi-participant activity carries a count and a
      description. */
  lemma ValidActivityClaimValued(types: map<Id, ActivityType>, activities: map<Id, Activity>,
                                 input: LogInput, today: int, id: Id)
    requires ActivitiesTyped(types, activities)
    requires input.activityId == Some(id) && id in activities
    requires today - activities[id].date <= CLAIM_WINDOW
    requires !NeedsParticipants(types[activities[id].typeId], input)
    ensures var a := activities[id];
            Value(types, activities, input, today) == Ok(Parsed(Some(id), a.typeId, a.date,
                                                                Points(types[a.typeId], Count(input.participants))))
  {
  }

  /** The claim window on the type path: a date exactly 30 days back is
      accepted and one 31 days back is refused as too late. */
  lemma ClaimWindowBoundary(types: map<Id, ActivityType>, activities: map<Id, Activity>,
                            input: LogInput, today: int)
    requires ActivitiesTyped(types, activities)
    requires input.activityId.None? && input.typeId.Some? && input.typeId.value in types
    requires !types[input.typeId.value].multipleParticipants
    ensures Value(types, activities, input.(date := Some(today - 30)), today).Ok?
    ensures Value(types, activities, input.(date := Some(today - 31)), today) == Err(TooLate)
  {
  }

  /** The same boundary on the activity path, where the date is the stored
      activity's. */
  lemma ActivityClaimWindowBoundary(types: map<Id, ActivityType>, activities: map<Id, Activity>,
                                    input: LogInput, today: int)
    requires ActivitiesTyped(types, activities)
    requires input.activityId.Some? && input.activityId.value in activities
    requires !types[activities[input.activityId.value].typeId].multipleParticipants
    ensures activities[input.activityId.value].date == today - 30 ==>
              Value(types, activities, input, today).Ok?
    ensures activities[input.activityId.value].date == today - 31 ==>
              Value(types, activities, input, today) == Err(TooLate)
  {
  }

  /** On the activity path only staleness is checked, so an activity dated
      in the future is valued without complaint. */
  lemma FutureActivityAccepted(types: map<Id, ActivityType>, activities: map<Id, Activity>,
                               input: LogInput, today: int)
    requires ActivitiesTyped(types, activities)
    requires input.activityId.Some? && input.activityId.value in activities
    requires activities[input.activityId.value].date > today
    requires !types[activities[input.activityId.value].typeId].multipleParticipants
    ensures Value(types, activities, input, today).Ok?
    ensures Value(types, activities, input, today).value.date > today
  {
  }

  /** A multi-participant type worth 10 points claimed for 3 participants is
      worth 30. */
  lemma MultiParticipantScenario(types: map<Id, ActivityType>, activities: map<Id, Activity>,
                                 input: LogInput, today: int)
    requires ActivitiesTyped(types, activities)
    requires input.activityId.None? && input.typeId.Some? && input.typeId.value in types
    requires types[input.typeId.value].multipleParticipants && types[input.typeId.value].value == 10
    requires input.participants == Some(3)
    requires input.date.Some? && today - 30 <= input.date.value <= today
    ensures Value(types, activities, input, today) == Ok(Parsed(None, input.typeId.value, input.date.value, 30))
  {
  }
}
